=== FILE: README.md ===
# Roster import core of Train-Stats, in Dafny

Train-Stats imports duty-roster booklets (*livrets de prestations*) and
station lists into its database. This project models the import's core as
pure functions over strings, sequences and an in-memory store, and proves
what that core guarantees.

- `wrappers.dfy`: module `Wrappers`, an `Option` type.
- `jsstring.dfy`: module `JsString`. It holds the JavaScript string primitives the
  import relies on:
  - `trim` with the ECMAScript white-space set;
  - `split` on a literal, `Array.prototype.join`;
  - string `<` (code-unit order);
  - `Number` of a digit string;
  - `padStart`, `repeat`;
  - counting the matches of `match(/CTB/g)`.
- `prestations.dfy`: module `Prestations`, the whole of `prestations.ts`:
  - `textToPrestations` cuts the booklet into duty blocks at a line of 100
    underscores;
  - `decoupeTachesPrestation` cuts a duty's task list into tasks, each
    ending with its time range;
  - `additionnerHeures` measures a task in minutes.
- `normalize.dfy`: module `Normalize`, `parseOdtToText`. Every `replace`
  whose pattern decides the final text is modelled as the match the
  JavaScript engine finds at each position:
  - counted spaces;
  - space and tab elements;
  - paragraph and heading ends;
  - any other tag;
  - white-space runs.

  A generic left-to-right scan performs each replacement.
- `extraction.dfy`: module `Extraction`, the body of the block loop of the
  `afterChange` hook. Each regular expression is a function from text to a
  match variant (`TitleMatched(…) | TitleUnmatched`, …). The fold computes:
  - the duty number and period;
  - the amplitude;
  - start and end;
  - the four minute buckets;
  - the CTB cycle assignments;
  - the series list threaded through the blocks;
  - the ISO date.
- `persistence.dfy`: module `Persistence`. It holds what the hook writes:
  - create-if-absent by (date, depot, number, period, assignments);
  - the depot station update;
  - the station-list import that skips known codes and stops at the first entry the `gares` collection rejects;
  - the guard on documents already imported.

  The store is a pair of sequences in the order the database's `find`
  returns them.

## Model

| member | source | states |
|---|---|---|
| Prestations.TextToPrestations | src/collections/Import/prestations.ts:1-9 | block `k` is the trimmed piece at the `k`-th non-blank position of the split at 100 underscores; there is one block per non-blank piece; every block is non-empty, trimmed and free of the separator |
| Prestations.Blocks | src/collections/Import/prestations.ts:3-6 | the same for any non-empty separator: the blocks are the trimmed non-blank pieces of the split, in order |
| Prestations.BlocksInOrder | src/collections/Import/prestations.ts:3-6 | blocks follow document order: the positions of the pieces they come from strictly increase, and every non-blank piece gives a block |
| Prestations.NonBlankPositionsShape | src/collections/Import/prestations.ts:6 | the kept positions are strictly increasing and are exactly the positions of non-blank pieces |
| Prestations.KeptNonEmpty | src/collections/Import/prestations.ts:6 | dropping empty strings keeps, in order, exactly the strings at the non-empty positions |
| Prestations.TrimmedPositions | src/collections/Import/prestations.ts:5-6 | a piece trims to nothing exactly when it is blank, so trim-then-filter keeps the non-blank positions |
| Prestations.SingleBlock | src/collections/Import/prestations.ts:3-6 | text without the separator gives no block if it is blank, else exactly one block, the trimmed text |
| Prestations.SplitRanges | src/collections/Import/prestations.ts:12-14 | `split` on the capturing time-range pattern equals the reference reading `Scan`: the text up to the leftmost match, the greedy match there, then the split of what follows (the text runs to the end when no match is left); every text piece holds no time range, every captured piece starts with one, and the pieces concatenate back to the scanned text |
| Prestations.NextMatchIsFirst | src/collections/Import/prestations.ts:12-14 | no time range starts between the scan position and the position the reference takes as the next match, so every captured range is the leftmost one after the previous range and no position inside a text piece starts a range |
| Prestations.ScanShape | src/collections/Import/prestations.ts:12-14 | the pieces alternate text, range, …, text (an odd count, text at even places) and concatenate to the scanned input |
| Prestations.ScanPieces | src/collections/Import/prestations.ts:12-14 | every range piece is one whole greedy match of `\d{2}.\d{2}-\d{2}.\d{2} *\d{0,4}`: the pattern, matched on the piece alone, takes all of it; no text piece holds a range |
| Prestations.TaskParts | src/collections/Import/prestations.ts:12-14 | the parts are exactly the non-blank pieces of the reference split, in order; after the blank filter every part is non-blank, a part that holds a time range starts with it, and the parts hold exactly the non-space characters of the task list, in order |
| Prestations.DropBlankKeepsText | src/collections/Import/prestations.ts:14 | removing blank parts loses no non-space character |
| Prestations.GlueIsGroup | src/collections/Import/prestations.ts:16-27 | the loop (push a part without a time range, append a time range to the last segment, drop it while there is none) equals an independent right-to-left grouping |
| Prestations.GroupShape | src/collections/Import/prestations.ts:16-27 | one segment per descriptive part; each segment starts with its descriptive part; the dropped leading time ranges followed by the segments give back all parts in order |
| Prestations.DecoupeTaches | src/collections/Import/prestations.ts:11-28 | segment count equals the number of non-blank descriptive chunks; every segment starts with a non-blank chunk without a time range; leading time ranges are dropped; nothing is reordered or duplicated |
| Prestations.AdditionnerHeures | src/collections/Import/prestations.ts:30-46 | the lexical hour comparison is the numeric one; across midnight the result is end + 24h − start, otherwise end − start; either way start plus result equals end modulo a day |
| Prestations.OvernightSpan | src/collections/Import/prestations.ts:32-37 | for real clock readings with a later start hour the result lies in 1..1439 |
| Prestations.NegativeOnlyWithinHour | src/collections/Import/prestations.ts:38-45 | between real clock readings the result is negative exactly when the hours agree and the minutes go backwards (no clamp) |
| Prestations.AdditionnerHeuresExamples | src/collections/Import/prestations.ts:30-46 | 23:45→00:15 gives 30, 08:00→16:30 gives 510, 08:30→08:10 gives −20 |
| JsString.Trim | src/collections/Import/prestations.ts:5 | `trim` gives a slice of its input with no white space at either end and only white space removed |
| JsString.TrimEmpty | src/collections/Import/prestations.ts:6 | the trimmed text is empty exactly when the text is blank |
| JsString.Split | src/collections/Import/prestations.ts:4 | `split` on a literal: at least one piece, no piece holds the separator, joining with it gives the input back |
| JsString.SplitLeftmost | src/collections/Import/prestations.ts:4 | each cut is at the leftmost occurrence: every piece but the last, followed by the separator, first shows the separator right after the piece |
| JsString.TwoDigitOrder | src/collections/Import/prestations.ts:32 | on two-digit strings the string `>` is the numeric one |
| JsString.CountMatches | src/collections/Import/Import.ts:97 | the `CTB` count is zero exactly when the text has no `CTB` |
| JsString.CountMatchesIsCuts | src/collections/Import/Import.ts:97 | the count of `match(/CTB/g)` is the number of non-overlapping occurrences, one less than the pieces of a leftmost split |
| Normalize.CountedSpacesAt | src/collections/Import/Import.ts:25 | a counted-space element starts with `<text:s`, ends with `/>` at its first `>`, and becomes as many spaces as the digits of a `text:c="…"` attribute before the slash say; `CountedSpacesUsesLast` gives the converse and which attribute wins |
| Normalize.Replace | src/collections/Import/Import.ts:25-35 | a global replace with any markup rule leaves text without `<` unchanged |
| Normalize.TagsGone | src/collections/Import/Import.ts:35 | after removing tags no position starts a tag `<[^>]+>` |
| Normalize.StripMarkup | src/collections/Import/Import.ts:24-35 | the markup steps leave no tag, and leave markup-free text unchanged |
| Normalize.ReplacePlain | src/collections/Import/Import.ts:25-35 | text without `<` passes any markup rule untouched, whatever follows it |
| Normalize.ElementThroughAll | src/collections/Import/Import.ts:25-35 | an element that the earlier rules leave alone and one rule replaces becomes that replacement, and the rest of the text is rewritten as if the element were absent |
| Normalize.StripPiece | src/collections/Import/Import.ts:25-35 | character data is kept, `<text:p>` vanishes, `</text:p>` and `</text:h>` become a space, `<text:s/>` a space, `<text:tab/>` a tab, `<text:s text:c="d"/>` `d` spaces |
| Normalize.StripPieces | src/collections/Import/Import.ts:24-35 | a document built from such pieces is stripped to the concatenation of the pieces' readings |
| Normalize.ParagraphExample | src/collections/Import/Import.ts:24-35 | `<text:p>w</text:p>` reads as `w` and one space, for any `w` without `<` |
| Normalize.MixedExample | src/collections/Import/Import.ts:24-35 | a paragraph with a counted space of `d`, a tab and text reads as the text with `d` spaces, a tab and a closing space |
| Normalize.CollapseWhitespace | src/collections/Import/Import.ts:38 | collapsing and trimming gives the words of the text (its maximal runs of non-space characters) joined by single spaces: trimmed, every white-space character a lone plain space, every other character kept in order |
| Normalize.CollapseJoinsWords | src/collections/Import/Import.ts:38 | before the trim, text starting with a word collapses to its words joined by single spaces, plus one space for a trailing run |
| Normalize.CollapseIsJoinOfWords | src/collections/Import/Import.ts:38 | `replace(/\s+/g, ' ').trim()` equals the words joined by single spaces |
| Normalize.CollapseIdempotent | src/collections/Import/Import.ts:38 | normalising twice is normalising once |
| Normalize.NormalizedIsFixed | src/collections/Import/Import.ts:38 | already normalised text is left as it is |
| Normalize.ParseOdtToText | src/collections/Import/Import.ts:12-41 | a non-zip file yields nothing; otherwise the text is the words of the raw text (fallback) or of the decoded stripped markup, joined by single spaces, hence normalised |
| Normalize.PlainContentMatchesFallback | src/collections/Import/Import.ts:19-39 | markup-free content with nothing to decode reads exactly as the fallback reads it |
| Normalize.CountAttrAtFinds | src/collections/Import/Import.ts:25 | a `text:c="digits"` attribute whose closing quote lies before the slash is found at its place, with its whole digit run |
| Normalize.LastCountAttrFinds | src/collections/Import/Import.ts:25 | the backward search from the slash returns the last attribute that fits before the slash, as the greedy `[^>]*` in front of `text:c=` makes the pattern do |
| Normalize.CountedSpacesUsesLast | src/collections/Import/Import.ts:25 | the converse of `CountedSpacesAt`: an element starting with `<text:s` whose first `>` follows a slash and that holds a fitting count attribute is matched up to that `>` and becomes as many spaces as the last such attribute says |
| Normalize.CountedSpacesExample | src/collections/Import/Import.ts:25 | `<text:s text:c="3"/>` becomes three spaces |
| Extraction.AddTask | src/collections/Import/Import.ts:154-198 | an unmatched task changes no total; a matched one adds its duration to active, and to reserve, HLP and drive exactly when it is `Res`, `HLP`, or has group 7 or group 2 or is `CarWash` |
| Extraction.TallyIsSum | src/collections/Import/Import.ts:154-198 | each bucket equals the sum of the durations of the tasks it classifies |
| Extraction.TallyBounds | src/collections/Import/Import.ts:157-197 | with no negative task, reserve + HLP ≤ active and 0 ≤ drive ≤ active |
| Extraction.UnmatchedTasksIgnored | src/collections/Import/Import.ts:156-158 | removing the tasks the detail pattern rejects leaves the totals unchanged |
| Extraction.ExcludedDays | src/collections/Import/Import.ts:208-212 | an `N` token covers, in ascending order, exactly the days 1 to 7 it does not list |
| Extraction.ExcludedDaysExample | src/collections/Import/Import.ts:208-212 | `N26` covers 1, 3, 4, 5, 7 |
| Extraction.NoDayExample | src/collections/Import/Import.ts:208-214 | `N1234567` covers no day |
| Extraction.TokenAssignments | src/collections/Import/Import.ts:214-224 | one assignment per covered day in day order, with the token's series and period and the week defaulting to `"0"`; an unmatched token gives none |
| Extraction.RoulementFromTokens | src/collections/Import/Import.ts:204-224 | an assignment is in a block's `roulement` exactly when some token of the block produces it |
| Extraction.CtbCountBounds | src/collections/Import/Import.ts:202-206 | `totalCTBFound` grows by a block's token count exactly when every token matches, and not at all exactly when none does |
| Extraction.AddSeries | src/collections/Import/Import.ts:215-218 | the series list keeps its entries in order, gains no duplicate, and gains exactly the series some assignment names |
| Extraction.EmptyTokenAddsNothing | src/collections/Import/Import.ts:214-218 | a token with no day adds no series |
| Extraction.SeriesOf | src/collections/Import/Import.ts:204-224 | across blocks the list never repeats a series and holds exactly the series some block assigns |
| Extraction.SeriesOnlyGrow | src/collections/Import/Import.ts:204-224 | the list after any prefix of the blocks is a prefix of the final list |
| Extraction.ExtractDuty | src/collections/Import/Import.ts:117-233 | the number is title group 2; the period is title group 4 when that group is non-empty, `Toute l'année` when the title matched without it, and empty when the title fails; amplitude, start and end are `HH:MM` joins of their matched digit groups and empty when the pattern fails; the totals are the per-bucket sums over the block's tasks (none without a start/end line); the assignments are those of the tokens; the CTB count is the matched tokens; a valid block has all four matches |
| Extraction.AmplitudeAgrees | src/collections/Import/Import.ts:142-145 | the amplitude text is the Durée groups joined by `:`, and the amplitude minutes are 60·HH + MM of them, at most 6039 |
| Extraction.DutyBuckets | src/collections/Import/Import.ts:150-199 | within a block whose task durations are non-negative, reserve + HLP ≤ active and drive ≤ active |
| Extraction.SplitDate | src/collections/Import/Import.ts:242-244 | `dd/mm/yyyy` split on `/` gives day, month, year |
| Extraction.IsoDate | src/collections/Import/Import.ts:240-246 | the date has the shape `yyyy-mm-dd`, and is `1970-01-01` when the booklet gives none |
| Extraction.IsoDateRoundTrip | src/collections/Import/Import.ts:242-246 | the booklet's `dd/mm/yyyy` is recovered from the ISO date |
| Extraction.ExtractDocument | src/collections/Import/Import.ts:94-246 | the blocks are those of `textToPrestations`, one duty per block in order; the series list has no duplicates and holds exactly the series some duty assigns; `totalCTBFound` is the sum of the blocks' counts; the date is the ISO form of the booklet date; the depot code is the depot pattern's capture when there is a block and none otherwise (`Import.ts:238`, 250-254); the CTB count in the text is the number of non-overlapping occurrences |
| Extraction.CoverageCases | src/collections/Import/Import.ts:316-320 | without `CTB` in the text the warning fires exactly when some token was counted; without blocks it fires exactly when the text has `CTB` |
| Persistence.FindGare | src/collections/Import/Import.ts:250-261 | the station found is the first one with the code; none is found only when no station has it |
| Persistence.SaveDuty | src/collections/Import/Import.ts:256-311 | nothing is written without a depot station; otherwise the key is stored afterwards, and a record was appended exactly when the key was absent, that record carrying the block's number, depot, date, times, amplitude, period, assignments, totals and raw text; stations are untouched |
| Persistence.SaveDutyIdempotent | src/collections/Import/Import.ts:262-311 | saving the same block twice changes nothing more |
| Persistence.SaveAllStoresEveryKey | src/collections/Import/Import.ts:104-312 | after the loop every block's key is stored when the depot resolves |
| Persistence.SaveAllKnownKeys | src/collections/Import/Import.ts:275-311 | a store already holding every block's key is left alone |
| Persistence.UpdateDepot | src/collections/Import/Import.ts:321-338 | the depot station is flagged and its series replaced by this booklet's list; no other station and no record changes |
| Persistence.PersistUpdatesDepot | src/collections/Import/Import.ts:321-338 | with a depot code some station carries, that station ends up flagged as a depot with exactly the given series, and no other station changes |
| Persistence.DepotOverwritten | src/collections/Import/Import.ts:321-338 | after importing a booklet with blocks and a known depot, the station's series are exactly the booklet's list, whatever they were before |
| Persistence.NoBlockNoWrite | src/collections/Import/Import.ts:100-345 | a booklet without blocks writes nothing |
| Persistence.PersistIdempotent | src/collections/Import/Import.ts:248-345 | persisting the same blocks twice leaves the store as after once |
| Persistence.ImportPrestationsIdempotent | src/collections/Import/Import.ts:92-345 | importing the same booklet twice leaves the store as after once |
| Persistence.AddGare | src/collections/Import/Import.ts:374-377 | the created station is appended with the next id, the entry's code, its French name as `garefr`, its Dutch name as `garenl`, no depot flag and no series; nothing else changes |
| Persistence.LieuxNamesFromFirstEntry | src/collections/Import/Import.ts:372-380 | each created station carries the names of the first list entry with its code, with no required field empty; ids run in list order, and no created code was known |
| Persistence.LieuxCreatesUnknownOnce | src/collections/Import/Import.ts:372-383 | the created stations are one per code that was not known and is listed before the loop stops, no code twice, none already known |
| Persistence.LieuxStop | src/collections/Import/Import.ts:372-387 | the loop stops at the first entry that brings a code neither known nor listed earlier and has an empty `garefr`, `garenl` or `code` (the `create` throws to the handler); every earlier entry that brings a new code has all three |
| Persistence.ImportLieux | src/collections/Import/Import.ts:365-384 | records are untouched and existing stations stay in place; the appended stations are one per code not already among the first 10000 stations and listed before the first entry the `gares` collection rejects, no code twice, each named after the first list entry with its code, none with an empty required field |
| Persistence.ImportLieuxIdempotent | src/collections/Import/Import.ts:369-383 | while the station count stays within the `find` limit of 10000, importing the same list again creates nothing: the accepted codes are known, and the entry that stopped the first run stops the second |
| Persistence.AfterChange | src/collections/Import/Import.ts:84-92 | a document already imported changes nothing; records are only ever appended |
| Persistence.AfterChangeTwice | src/collections/Import/Import.ts:84-345 | a hook that fires twice on a booklet stores what one run stores |

## Left out

- Reading the upload (`fs.readFile`) and unzipping it (`JSZip`) are I/O. The file is an `Upload` value: its raw text, whether it is a zip archive, and its `content.xml` entry if any.
- `JSON.parse` of a station list is left out; the list is given as a sequence.
- `he.decode` is a foreign library. Entity decoding is a function parameter.
- The regular expressions of the block loop are not modelled: the title, date, amplitude, start/end, detail, CTB token, depot code and booklet date patterns. Each is a function from text to a match variant, passed in `Extraction.Patterns`.
  - A present group is taken to be as the pattern makes it: two digits for `\d{2}`, at least one digit for `\d+`.
  - The regex engine is modelled only where the text itself is rewritten: the time-range pattern of `prestations.ts` and the markup patterns of `parseOdtToText`.
- The `setTimeout` that marks the document imported, its race with the station import and with the error handler, the error handler's own update, and all logging are left out. These are timing, concurrency and output. Only the guard on `etat` is modelled.
- The database is an in-memory `Store`, in the following sense:
  - `find` returns stations in store order.
  - Every station id is truthy, and ids are unique: the depot update addresses the station by position.
  - The equality query on `roulement` is sequence equality of assignments.
  - A `create` of a duty is taken to succeed whenever it is called. The `prestations` collection marks `name`, `periode`, `heureDebut`, `heureFin` and `amplitude` as required (`Prestations/Prestations.ts:14-65`). The store therefore rejects a block whose title, Durée or start/end pattern failed, because those fields are then empty, and the `.catch` at `Import.ts:299` only logs the rejection. The model does not enforce the collection's field validation and stores such a record.
- A station `create` fails exactly when `garefr`, `garenl` or `code` is empty, because the `gares` collection requires all three (`Gare.ts:15-31`). A field missing from the list file reads as the empty string, and other database failures are not modelled. The failure throws out of the loop, whose later entries are never imported. `LieuxAccepted` gives how far the loop gets. The `error` state the handler then writes to the document (`Import.ts:387-396`) is not modelled.
- The validity count `documentValide` only feeds a log line. It is kept as `Duty.valid` and nothing reads it.
- StripPieces: the piece-by-piece reference covers character data, `<text:p>`, paragraph and heading ends, `<text:s/>`, `<text:tab/>` and counted spaces with a one-digit count. Other tags, attributes on these elements and longer counts are covered only by the contracts of `StripMarkup` and `CountedSpacesAt`.
- Persistence.SaveDuty: its contract says a record is appended whenever the depot is found and the key is new. For a block with an empty required field the store would reject that `create`, so there the contract promises a record the code does not get.
- `' '.repeat(n)` throws for a count beyond the string-length limit; counts are unbounded here.
- Strings are sequences of characters. Every character the import compares lies in the Basic Multilingual Plane; surrogate pairs are not modelled.
- Extraction.ExtractDocument: the code re-reads the depot code and the booklet date inside each block iteration. The model reads them once, which gives the same values because both depend on the whole text only. Extraction and saving also run as two passes instead of being interleaved per block. This is equivalent because extraction never reads the store.

Where the code differs from what a reader might expect, the model follows the code:

- The code does not consult the validity test before `create`; only the depot lookup and the key query gate it. A block that fails only the date-of-application test is therefore stored. A block that fails one of the other three tests leaves a required field empty. The real store rejects it, but the model stores it (see the `create` line above).
- A station's series are replaced by this booklet's list (`Import.ts:335`), not merged with the ones it had.
- Minute totals can be negative: `additionnerHeures` adds a day only when the start hour is greater. 08:30→08:10 gives −20.
- The final collapse turns every white-space run into one space. The runs of spaces and the tabs produced by the markup steps therefore do not survive.
- `R` day digits are not range-checked (`R9` yields a day `9`).
- The validity flag is not stored with the record.

=== FILE: extraction.dfy ===
/** The per-block extraction of the import hook. The hook takes the
    booklet's text, cuts it into duty blocks, and for every block reads a
    header, an amplitude, a start/end line with the task list, and the cycle
    (CTB) tokens. It threads the list of series through the blocks. The
    regular expressions themselves are not modelled. Each one is a function
    from text to a match result, and the fold is written over those
    results. */
module Extraction {

  import opened Wrappers
  import opened JsString
  import Prestations

  // ---------------------------------------------------------------------
  // Match results of the block patterns

  /** `Prestation ?(\w{1,4}) *(\d{1,4}) ?(\w\d{0,3}) ?(\w*)`: group 2 is the
      duty number, group 4 the period (possibly empty). */
  datatype TitleMatch = TitleUnmatched | TitleMatched(number: string, period: string)

  /** `Durée ?: ?(\d{2}).(\d{2})\* …`: the amplitude's hours and minutes. */
  datatype DureeMatch = DureeUnmatched | DureeMatched(hours: Digits2, minutes: Digits2)

  /** `\*(\d{2}).(\d{2})\*{5,} ?\*+(.+)\*{7} \*(\d{2}).(\d{2})`: start, the
      task list, end. */
  datatype HorairesMatch =
    | HorairesUnmatched
    | HorairesMatched(startH: Digits2, startM: Digits2, content: string, endH: Digits2, endM: Digits2)

  /** The detail pattern on one task: group 2 (the number after a two-letter
      prefix), group 3 (the task category), group 7 (the train number
      `\d{3,6}` of a driving task, which group 6, a route marker such as
      `ER` or `RE`, may precede) and groups 16 to 19 (the closing time
      range). A group that did not take part is `None`. */
  datatype DetailMatch =
    | DetailUnmatched
    | DetailMatched(prefixNumber: Option<string>, category: Option<string>, trainNumber: Option<string>,
                    startH: Digits2, startM: Digits2, endH: Digits2, endM: Digits2)

  /** `R` lists the days of the cycle; `N` lists the days it leaves out. */
  datatype DayKind = Listed | Excluded

  /** `CTB ?(\w+) ?(\d{1,2})? ?(R|N)(\d+) ?(\w+)?`: series, week, day kind,
      day digits, period. */
  datatype CtbMatch =
    | CtbUnmatched
    | CtbMatched(serie: string, week: Option<string>, kind: DayKind, days: DigitRun, period: Option<string>)

  /** Text of the form `\d{2}\/\d{2}\/\d{4}`. */
  predicate IsDateText(s: string) {
    |s| == 10 && s[2] == '/' && s[5] == '/'
    && IsDigit(s[0]) && IsDigit(s[1]) && IsDigit(s[3]) && IsDigit(s[4])
    && IsDigit(s[6]) && IsDigit(s[7]) && IsDigit(s[8]) && IsDigit(s[9])
  }

  type DateText = s: string | IsDateText(s) witness "01/01/1970"

  /** Every regular expression the hook applies, as what it yields on a
      given text. `serieSemaine` is `match` with the global flag (no match
      gives no tokens); `depot` and `dateLivret` run on the whole document
      and give their first group. */
  datatype Patterns = Patterns(
    title: string -> TitleMatch,
    dateApplication: string -> bool,
    duree: string -> DureeMatch,
    horaires: string -> HorairesMatch,
    detail: string -> DetailMatch,
    serieSemaine: string -> seq<string>,
    ctb: string -> CtbMatch,
    depot: string -> Option<string>,
    dateLivret: string -> Option<DateText>)

  /** JavaScript truthiness of a capture group. */
  predicate Truthy(g: Option<string>) {
    g.Some? && |g.value| > 0
  }

  // ---------------------------------------------------------------------
  // Minute buckets

  datatype Totals = Totals(active: int, reserve: int, hlp: int, drive: int)

  const NoTotals := Totals(0, 0, 0, 0)

  function TaskDuration(m: DetailMatch): int
    requires m.DetailMatched?
  {
    Prestations.AdditionnerHeures(m.startH, m.startM, m.endH, m.endM)
  }

  predicate IsReserve(m: DetailMatch) {
    m.DetailMatched? && m.category == Some("Res")
  }

  predicate IsHlp(m: DetailMatch) {
    m.DetailMatched? && m.category == Some("HLP")
  }

  predicate IsDrive(m: DetailMatch) {
    m.DetailMatched? && (Truthy(m.trainNumber) || Truthy(m.prefixNumber) || m.category == Some("CarWash"))
  }

  /** One task of the loop: a task the detail pattern rejects changes
      nothing. A matched one always counts as active, because groups 16
      and 18 are two digits each. It may also count as reserve, as HLP,
      and as drive, each time with the same duration. */
  function AddTask(t: Totals, m: DetailMatch): (r: Totals)
    ensures m.DetailUnmatched? ==> r == t
    ensures m.DetailMatched? ==> r.active == t.active + TaskDuration(m)
    ensures r.reserve == t.reserve + (if IsReserve(m) then TaskDuration(m) else 0)
    ensures r.hlp == t.hlp + (if IsHlp(m) then TaskDuration(m) else 0)
    ensures r.drive == t.drive + (if IsDrive(m) then TaskDuration(m) else 0)
  {
    match m
    case DetailUnmatched => t
    case DetailMatched(prefixNumber, category, trainNumber, startH, startM, endH, endM) =>
      var d := TaskDuration(m);
      var t1 := if |startH| > 0 && |endH| > 0 then t.(active := t.active + d) else t;
      var t2 := if category == Some("Res") then t1.(reserve := t1.reserve + d) else t1;
      var t3 := if category == Some("HLP") then t2.(hlp := t2.hlp + d) else t2;
      if Truthy(trainNumber) || Truthy(prefixNumber) || category == Some("CarWash") then
        t3.(drive := t3.drive + d)
      else
        t3
  }

  /** The totals of a block's tasks, in task order. */
  function Tally(ms: seq<DetailMatch>): Totals
    decreases |ms|
  {
    if |ms| == 0 then NoTotals else AddTask(Tally(ms[..|ms| - 1]), ms[|ms| - 1])
  }

  /** Sum of the durations of the tasks `sel` picks: a reference for
      the buckets. */
  function SumDurations(ms: seq<DetailMatch>, sel: DetailMatch -> bool): int
    decreases |ms|
  {
    if |ms| == 0 then 0
    else
      var m := ms[|ms| - 1];
      SumDurations(ms[..|ms| - 1], sel) + (if m.DetailMatched? && sel(m) then TaskDuration(m) else 0)
  }

  predicate AnyTask(m: DetailMatch) {
    true
  }

  /** Each bucket is the sum of the durations of the tasks it classifies. */
  lemma {:induction false} TallyIsSum(ms: seq<DetailMatch>)
    ensures Tally(ms) == Totals(SumDurations(ms, AnyTask), SumDurations(ms, IsReserve),
                                SumDurations(ms, IsHlp), SumDurations(ms, IsDrive))
    decreases |ms|
  {
    if |ms| > 0 {
      TallyIsSum(ms[..|ms| - 1]);
    }
  }

  predicate NonNegativeDurations(ms: seq<DetailMatch>) {
    forall i :: 0 <= i < |ms| && ms[i].DetailMatched? ==> TaskDuration(ms[i]) >= 0
  }

  /** With no negative task, reserve and HLP together fit within active
      time, and so does drive. */
  lemma {:induction false} TallyBounds(ms: seq<DetailMatch>)
    requires NonNegativeDurations(ms)
    ensures var t := Tally(ms);
            0 <= t.reserve && 0 <= t.hlp && t.reserve + t.hlp <= t.active && 0 <= t.drive <= t.active
    decreases |ms|
  {
    if |ms| > 0 {
      var init := ms[..|ms| - 1];
      assert NonNegativeDurations(init) by {
        forall i | 0 <= i < |init| && init[i].DetailMatched?
          ensures TaskDuration(init[i]) >= 0
        {
          assert init[i] == ms[i];
        }
      }
      TallyBounds(init);
    }
  }

  /** Only tasks the detail pattern matched. */
  function MatchedOnly(ms: seq<DetailMatch>): (r: seq<DetailMatch>)
    ensures forall i :: 0 <= i < |r| ==> r[i].DetailMatched?
    decreases |ms|
  {
    if |ms| == 0 then []
    else MatchedOnly(ms[..|ms| - 1]) + (if ms[|ms| - 1].DetailMatched? then [ms[|ms| - 1]] else [])
  }

  /** Tasks the detail pattern rejects could as well be absent. */
  lemma {:induction false} UnmatchedTasksIgnored(ms: seq<DetailMatch>)
    ensures Tally(ms) == Tally(MatchedOnly(ms))
    decreases |ms|
  {
    if |ms| > 0 {
      var init := ms[..|ms| - 1];
      var last := ms[|ms| - 1];
      UnmatchedTasksIgnored(init);
      if last.DetailMatched? {
        var r := MatchedOnly(init) + [last];
        assert r[..|r| - 1] == MatchedOnly(init);
        assert MatchedOnly(ms) == r;
        assert Tally(r) == AddTask(Tally(MatchedOnly(init)), last);
      } else {
        assert MatchedOnly(ms) == MatchedOnly(init) + [];
        assert MatchedOnly(init) + [] == MatchedOnly(init);
      }
    }
  }

  /** The task results of a block's task list. */
  function Details(detail: string -> DetailMatch, tasks: seq<string>): (ms: seq<DetailMatch>)
    ensures |ms| == |tasks|
    ensures forall i :: 0 <= i < |tasks| ==> ms[i] == detail(tasks[i])
  {
    seq(|tasks|, i requires 0 <= i < |tasks| => detail(tasks[i]))
  }

  // ---------------------------------------------------------------------
  // Cycle assignments

  datatype Assignment = Assignment(serie: string, semaine: string, jour: string, periode: Option<string>)

  const WeekDays := "1234567"

  /** `s.replace(new RegExp('[' + listed + ']', 'g'), '')`: the characters
      of `s` not in `listed`, in order. */
  function Without(s: string, listed: string): (r: string)
    ensures |r| <= |s|
    decreases |s|
  {
    if |s| == 0 then []
    else (if s[0] in listed then [] else [s[0]]) + Without(s[1..], listed)
  }

  /** What `Without` keeps: the characters of `s` outside `listed`. */
  lemma {:induction false} WithoutMembers(s: string, listed: string, c: char)
    ensures c in Without(s, listed) <==> c in s && c !in listed
    decreases |s|
  {
    if |s| > 0 {
      WithoutMembers(s[1..], listed, c);
      assert s == [s[0]] + s[1..];
    }
  }

  predicate Ascending(s: string) {
    forall i, j :: 0 <= i < j < |s| ==> s[i] < s[j]
  }

  lemma {:induction false} WithoutAscending(s: string, listed: string)
    requires Ascending(s)
    ensures Ascending(Without(s, listed))
    decreases |s|
  {
    if |s| > 0 {
      var rest := Without(s[1..], listed);
      WithoutAscending(s[1..], listed);
      if s[0] !in listed {
        var r := [s[0]] + rest;
        forall i, j | 0 <= i < j < |r|
          ensures r[i] < r[j]
        {
          if i > 0 {
            assert r[i] == rest[i - 1] && r[j] == rest[j - 1];
          } else {
            assert r[j] == rest[j - 1];
            WithoutMembers(s[1..], listed, rest[j - 1]);
            assert rest[j - 1] in s[1..];
          }
        }
      }
    }
  }

  /** The days a token covers. */
  function Days(kind: DayKind, digits: DigitRun): string {
    match kind
    case Listed => digits
    case Excluded => Without(WeekDays, digits)
  }

  lemma WeekDaysAreOneToSeven(c: char)
    ensures c in WeekDays <==> '1' <= c <= '7'
  {
    if '1' <= c <= '7' {
      assert WeekDays[c as int - '1' as int] == c;
    }
  }

  /** An `N` token covers, in ascending order, exactly the days one to seven
      it does not list. */
  lemma ExcludedDays(digits: DigitRun)
    ensures Ascending(Days(Excluded, digits))
    ensures forall c :: c in Days(Excluded, digits) <==> '1' <= c <= '7' && c !in digits
  {
    WithoutAscending(WeekDays, digits);
    forall c
      ensures c in Days(Excluded, digits) <==> '1' <= c <= '7' && c !in digits
    {
      WeekDaysAreOneToSeven(c);
      WithoutMembers(WeekDays, digits, c);
    }
  }

  /** `N26`: every day but Tuesday and Saturday. */
  lemma ExcludedDaysExample()
    ensures Days(Excluded, "26") == "13457"
  {
    var l := "26";
    ExcludedTail();
    assert '2' in l && '1' !in l;
    assert "234567"[1..] == "34567";
    assert Without("234567", l) == "3457";
    assert WeekDays[1..] == "234567";
    assert Without(WeekDays, l) == "13457";
  }

  /** The last five days of the week without Tuesday and Saturday. */
  lemma ExcludedTail()
    ensures Without("34567", "26") == "3457"
  {
    var l := "26";
    assert '7' !in l && '6' in l && '5' !in l && '4' !in l && '3' !in l;
    assert "7"[1..] == "";
    assert Without("7", l) == "7";
    assert "67"[1..] == "7";
    assert Without("67", l) == "7";
    assert "567"[1..] == "67";
    assert Without("567", l) == "57";
    assert "4567"[1..] == "567";
    assert Without("4567", l) == "457";
    assert "34567"[1..] == "4567";
    assert Without("34567", l) == "3457";
  }

  /** `N1234567` covers no day at all. */
  lemma NoDayExample()
    ensures Days(Excluded, "1234567") == ""
  {
    forall c | c in WeekDays
      ensures c !in Days(Excluded, "1234567")
    {
      WithoutMembers(WeekDays, "1234567", c);
    }
    if |Days(Excluded, "1234567")| > 0 {
      var d := Days(Excluded, "1234567");
      WithoutMembers(WeekDays, "1234567", d[0]);
    }
  }

  /** The assignments of one token: one per day, in day order; the week
      defaults to `"0"`. A token the CTB pattern rejects gives none. */
  function TokenAssignments(m: CtbMatch): (r: seq<Assignment>)
    ensures m.CtbUnmatched? ==> r == []
    ensures m.CtbMatched? ==> |r| == |Days(m.kind, m.days)|
    ensures m.CtbMatched? ==> forall i :: 0 <= i < |r| ==>
              r[i] == Assignment(m.serie, if Truthy(m.week) then m.week.value else "0",
                                 [Days(m.kind, m.days)[i]], m.period)
  {
    match m
    case CtbUnmatched => []
    case CtbMatched(serie, week, kind, digits, period) =>
      var ds := Days(kind, digits);
      var semaine := if Truthy(week) then week.value else "0";
      seq(|ds|, i requires 0 <= i < |ds| => Assignment(serie, semaine, [ds[i]], period))
  }

  /** The assignments of a block, token after token. */
  function Roulement(ctb: string -> CtbMatch, tokens: seq<string>): seq<Assignment>
    decreases |tokens|
  {
    if |tokens| == 0 then [] else Roulement(ctb, tokens[..|tokens| - 1]) + TokenAssignments(ctb(tokens[|tokens| - 1]))
  }

  /** How many tokens the CTB pattern matched (`totalCTBFound`). */
  function CtbCount(ctb: string -> CtbMatch, tokens: seq<string>): (n: nat)
    ensures n <= |tokens|
    decreases |tokens|
  {
    if |tokens| == 0 then 0
    else CtbCount(ctb, tokens[..|tokens| - 1]) + (if ctb(tokens[|tokens| - 1]).CtbMatched? then 1 else 0)
  }

  /** `a` is in one of the lists `f` gives for the elements of `xs`. */
  predicate InSome<T, U(==)>(f: T -> seq<U>, xs: seq<T>, a: U) {
    exists k :: 0 <= k < |xs| && a in f(xs[k])
  }

  lemma InSomeSnoc<T, U>(f: T -> seq<U>, xs: seq<T>, a: U)
    requires |xs| > 0
    ensures InSome(f, xs, a) <==> InSome(f, xs[..|xs| - 1], a) || a in f(xs[|xs| - 1])
  {
    var init := xs[..|xs| - 1];
    if InSome(f, init, a) {
      var k :| 0 <= k < |init| && a in f(init[k]);
      assert xs[k] == init[k];
    }
    if InSome(f, xs, a) {
      var k :| 0 <= k < |xs| && a in f(xs[k]);
      if k < |init| {
        assert init[k] == xs[k];
      }
    }
  }

  /** A block's assignments are exactly those of its tokens: each one comes
      from some token, and every assignment of a matched token is kept. */
  lemma {:induction false} RoulementFromTokens(ctb: string -> CtbMatch, tokens: seq<string>, a: Assignment)
    ensures a in Roulement(ctb, tokens) <==>
            exists k :: 0 <= k < |tokens| && a in TokenAssignments(ctb(tokens[k]))
    decreases |tokens|
  {
    if |tokens| > 0 {
      var init := tokens[..|tokens| - 1];
      var f := t => TokenAssignments(ctb(t));
      RoulementFromTokens(ctb, init, a);
      InSomeSnoc(f, tokens, a);
      assert InSome(f, tokens, a) <==> exists k :: 0 <= k < |tokens| && a in TokenAssignments(ctb(tokens[k]));
      assert InSome(f, init, a) <==> exists k :: 0 <= k < |init| && a in TokenAssignments(ctb(init[k]));
      assert Roulement(ctb, tokens) == Roulement(ctb, init) + TokenAssignments(ctb(tokens[|tokens| - 1]));
    }
  }

  /** The count is zero exactly when no token matches, and the number of
      tokens exactly when every one does. */
  lemma {:induction false} CtbCountBounds(ctb: string -> CtbMatch, tokens: seq<string>)
    ensures CtbCount(ctb, tokens) == 0 <==> forall k :: 0 <= k < |tokens| ==> ctb(tokens[k]).CtbUnmatched?
    ensures CtbCount(ctb, tokens) == |tokens| <==> forall k :: 0 <= k < |tokens| ==> ctb(tokens[k]).CtbMatched?
    decreases |tokens|
  {
    if |tokens| > 0 {
      var init := tokens[..|tokens| - 1];
      CtbCountBounds(ctb, init);
      assert forall k :: 0 <= k < |init| ==> init[k] == tokens[k];
    }
  }

  // ---------------------------------------------------------------------
  // The series list

  predicate NoDuplicates(s: seq<string>) {
    forall i, j :: 0 <= i < j < |s| ==> s[i] != s[j]
  }

  /** Some assignment is for series `x`. */
  predicate Mentions(asg: seq<Assignment>, x: string) {
    exists i :: 0 <= i < |asg| && asg[i].serie == x
  }

  /** `if (!serieList.includes(serie)) serieList.push(serie)` for every
      day. The list keeps its old entries in order and never repeats one.
      It gains exactly the series some assignment mentions. */
  function AddSeries(series: seq<string>, asg: seq<Assignment>): (r: seq<string>)
    ensures |series| <= |r| && r[..|series|] == series
    ensures NoDuplicates(series) ==> NoDuplicates(r)
    ensures forall x :: x in r <==> x in series || Mentions(asg, x)
    decreases |asg|
  {
    if |asg| == 0 then series
    else
      var init := asg[..|asg| - 1];
      var s := AddSeries(series, init);
      var x := asg[|asg| - 1].serie;
      assert forall y :: Mentions(asg, y) <==> Mentions(init, y) || y == x by {
        forall y | Mentions(init, y)
          ensures Mentions(asg, y)
        {
          var i :| 0 <= i < |init| && init[i].serie == y;
          assert asg[i] == init[i];
        }
      }
      if x in s then s
      else
        assert (s + [x])[..|series|] == s[..|series|];
        s + [x]
  }

  /** A token with no day adds no series: `N1234567` leaves the list as
      it is. */
  lemma EmptyTokenAddsNothing(series: seq<string>, m: CtbMatch)
    requires m.CtbMatched? && Days(m.kind, m.days) == []
    ensures AddSeries(series, TokenAssignments(m)) == series
  {
  }

  // ---------------------------------------------------------------------
  // One block

  const WholeYear := "Toute l'année"

  /** `hh + ':' + mm`. */
  function ClockText(h: Digits2, m: Digits2): (r: string)
    ensures |r| == 5 && r[2] == ':'
    ensures r[..2] == h && r[3..] == m
  {
    h + ":" + m
  }

  /** What the fold computes for one block. */
  datatype Duty = Duty(
    number: string,
    period: string,
    amplitude: string,
    amplitudeMinutes: nat,
    start: string,
    end: string,
    totals: Totals,
    roulement: seq<Assignment>,
    ctbFound: nat,
    valid: bool)

  /** The body of the block loop, up to persistence. Unmatched patterns
      leave their fields at the loop's initial values. */
  function ExtractDuty(p: Patterns, block: string): (d: Duty)
    ensures d.number == (if p.title(block).TitleMatched? then p.title(block).number else "")
    ensures d.period == "" <==> p.title(block).TitleUnmatched?
    ensures var t := p.title(block);
            t.TitleMatched? ==> d.period == (if |t.period| > 0 then t.period else WholeYear)
    ensures d.amplitude == "" <==> p.duree(block).DureeUnmatched?
    ensures p.duree(block).DureeMatched? ==>
              |d.amplitude| == 5 && d.amplitude[..2] == p.duree(block).hours && d.amplitude[2] == ':'
              && d.amplitude[3..] == p.duree(block).minutes
    ensures d.start == "" <==> p.horaires(block).HorairesUnmatched?
    ensures d.end == "" <==> p.horaires(block).HorairesUnmatched?
    ensures p.horaires(block).HorairesUnmatched? ==> d.totals == NoTotals
    ensures var h := p.horaires(block);
            h.HorairesMatched? ==>
              |d.start| == 5 && d.start[..2] == h.startH && d.start[2] == ':' && d.start[3..] == h.startM
              && |d.end| == 5 && d.end[..2] == h.endH && d.end[2] == ':' && d.end[3..] == h.endM
    ensures var h := p.horaires(block);
            h.HorairesMatched? ==>
              var ms := Details(p.detail, Prestations.DecoupeTaches(h.content));
              d.totals == Totals(SumDurations(ms, AnyTask), SumDurations(ms, IsReserve),
                                 SumDurations(ms, IsHlp), SumDurations(ms, IsDrive))
    ensures d.roulement == Roulement(p.ctb, p.serieSemaine(block))
    ensures d.ctbFound == CtbCount(p.ctb, p.serieSemaine(block)) <= |p.serieSemaine(block)|
    ensures d.valid <==> p.title(block).TitleMatched? && p.dateApplication(block)
                         && p.duree(block).DureeMatched? && p.horaires(block).HorairesMatched?
  {
    var title := p.title(block);
    var duree := p.duree(block);
    var horaires := p.horaires(block);
    var tokens := p.serieSemaine(block);
    var tasks := if horaires.HorairesMatched? then Details(p.detail, Prestations.DecoupeTaches(horaires.content)) else [];
    TallyIsSum(tasks);
    Duty(
      number := if title.TitleMatched? then title.number else "",
      period := if title.TitleMatched? then (if |title.period| > 0 then title.period else WholeYear) else "",
      amplitude := if duree.DureeMatched? then ClockText(duree.hours, duree.minutes) else "",
      amplitudeMinutes := if duree.DureeMatched? then Number(duree.hours) * 60 + Number(duree.minutes) else 0,
      start := if horaires.HorairesMatched? then ClockText(horaires.startH, horaires.startM) else "",
      end := if horaires.HorairesMatched? then ClockText(horaires.endH, horaires.endM) else "",
      totals := if horaires.HorairesMatched? then Tally(tasks) else NoTotals,
      roulement := Roulement(p.ctb, tokens),
      ctbFound := CtbCount(p.ctb, tokens),
      valid := title.TitleMatched? && p.dateApplication(block) && duree.DureeMatched? && horaires.HorairesMatched?)
  }

  /** The amplitude in minutes is what the amplitude text reads. */
  lemma AmplitudeAgrees(p: Patterns, block: string)
    ensures var d := ExtractDuty(p, block);
            d.amplitude == "" ==> d.amplitudeMinutes == 0
    ensures var d := ExtractDuty(p, block);
            var m := p.duree(block);
            m.DureeMatched? ==>
              d.amplitude == m.hours + ":" + m.minutes
              && d.amplitudeMinutes == 60 * Number(m.hours) + Number(m.minutes)
    ensures var d := ExtractDuty(p, block);
            d.amplitude != "" ==>
              |d.amplitude| == 5 && IsDigits(d.amplitude[..2]) && IsDigits(d.amplitude[3..])
              && d.amplitudeMinutes == 60 * Number(d.amplitude[..2]) + Number(d.amplitude[3..])
              && d.amplitudeMinutes <= 99 * 60 + 99
  {
    var duree := p.duree(block);
    if duree.DureeMatched? {
      NumberOfTwoDigits(duree.hours);
      NumberOfTwoDigits(duree.minutes);
    }
  }

  /** A header with an empty period group stands for the whole year. */
  lemma PeriodDefault(p: Patterns, block: string)
    requires p.title(block).TitleMatched? && p.title(block).period == ""
    ensures ExtractDuty(p, block).period == WholeYear
  {
  }

  /** Within a block whose tasks all have non-negative durations, reserve and
      HLP fit inside active time, and so does drive. */
  lemma DutyBuckets(p: Patterns, block: string)
    requires p.horaires(block).HorairesMatched?
    requires NonNegativeDurations(Details(p.detail, Prestations.DecoupeTaches(p.horaires(block).content)))
    ensures var t := ExtractDuty(p, block).totals;
            0 <= t.reserve && 0 <= t.hlp && t.reserve + t.hlp <= t.active && 0 <= t.drive <= t.active
  {
    TallyBounds(Details(p.detail, Prestations.DecoupeTaches(p.horaires(block).content)));
  }

  // ---------------------------------------------------------------------
  // The document

  /** Some block has an assignment for series `x`. */
  predicate Mentioned(ds: seq<Duty>, x: string) {
    exists k :: 0 <= k < |ds| && Mentions(ds[k].roulement, x)
  }

  lemma MentionedSnoc(ds: seq<Duty>, x: string)
    requires |ds| > 0
    ensures Mentioned(ds, x) <==> Mentioned(ds[..|ds| - 1], x) || Mentions(ds[|ds| - 1].roulement, x)
  {
    var init := ds[..|ds| - 1];
    if Mentioned(ds, x) {
      var k :| 0 <= k < |ds| && Mentions(ds[k].roulement, x);
      if k < |init| {
        assert init[k] == ds[k];
      }
    }
    if Mentioned(init, x) {
      var k :| 0 <= k < |init| && Mentions(init[k].roulement, x);
      assert init[k] == ds[k];
    }
  }

  /** The series list after the given blocks: it starts empty and is
      threaded through every block. It never repeats a series and holds
      exactly those some block assigns. */
  function SeriesOf(ds: seq<Duty>): (r: seq<string>)
    ensures NoDuplicates(r)
    ensures forall x :: x in r <==> Mentioned(ds, x)
    decreases |ds|
  {
    if |ds| == 0 then []
    else
      var r := AddSeries(SeriesOf(ds[..|ds| - 1]), ds[|ds| - 1].roulement);
      assert forall x :: x in r <==> Mentioned(ds, x) by {
        forall x
          ensures x in r <==> Mentioned(ds, x)
        {
          MentionedSnoc(ds, x);
        }
      }
      r
  }

  /** The series list only grows from block to block: the list after the
      first `k` blocks is a prefix of the final one. */
  lemma {:induction false} SeriesOnlyGrow(ds: seq<Duty>, k: nat)
    requires k <= |ds|
    ensures |SeriesOf(ds[..k])| <= |SeriesOf(ds)|
    ensures SeriesOf(ds)[..|SeriesOf(ds[..k])|] == SeriesOf(ds[..k])
    decreases |ds| - k
  {
    if k < |ds| {
      SeriesOnlyGrow(ds, k + 1);
      var a := SeriesOf(ds[..k]);
      var b := SeriesOf(ds[..k + 1]);
      assert ds[..k + 1][..k] == ds[..k];
      assert b[..|a|] == a;
    } else {
      assert ds[..k] == ds;
    }
  }

  /** `totalCTBFound` after the given blocks. */
  function SumCtb(ds: seq<Duty>): nat
    decreases |ds|
  {
    if |ds| == 0 then 0 else SumCtb(ds[..|ds| - 1]) + ds[|ds| - 1].ctbFound
  }

  /** `dd/mm/yyyy` split on `/`: day, month, year. */
  lemma SplitDate(d: DateText)
    ensures Split(d, "/") == [d[..2], d[3..5], d[6..]]
  {
    assert !OccursAt(d, "/", 0) && !OccursAt(d, "/", 1) by {
      assert d[0..1] == [d[0]] && d[1..2] == [d[1]];
    }
    assert OccursAt(d, "/", 2) by {
      assert d[2..3] == [d[2]];
    }
    assert IndexOf(d, "/", 0) == Some(2);
    var rest := d[3..];
    assert !OccursAt(rest, "/", 0) && !OccursAt(rest, "/", 1) by {
      assert rest[0..1] == [d[3]] && rest[1..2] == [d[4]];
    }
    assert OccursAt(rest, "/", 2) by {
      assert rest[2..3] == [d[5]];
    }
    assert IndexOf(rest, "/", 0) == Some(2);
    var year := rest[3..];
    assert year == d[6..];
    assert year == [d[6], d[7], d[8], d[9]];
    DigitsHaveNoSlash(year);
    SplitWithoutSeparator(year, "/");
    assert rest[..2] == d[3..5];
  }

  lemma DigitsHaveNoSlash(s: string)
    requires IsDigits(s)
    ensures !Contains(s, "/")
  {
    forall i: nat | i <= |s|
      ensures !OccursAt(s, "/", i)
    {
      if i + 1 <= |s| {
        assert s[i..i + 1] == [s[i]];
      }
    }
  }

  /** The document date as `yyyy-mm-dd`, from the booklet's `dd/mm/yyyy`,
      or 1 January 1970 when the booklet gives none. */
  function IsoDate(found: Option<DateText>): (r: string)
    ensures |r| == 10 && r[4] == '-' && r[7] == '-'
    ensures found.None? ==> r == "1970-01-01"
  {
    var parts := if found.Some? then SplitDate(found.value); Split(found.value, "/") else ["01", "01", "1970"];
    var jour, mois, annee := parts[0], parts[1], parts[2];
    annee + "-" + PadStart(mois, 2, '0') + "-" + PadStart(jour, 2, '0')
  }

  /** `dd/mm/yyyy` back from `yyyy-mm-dd`. */
  function DateFromIso(iso: string): string
    requires |iso| == 10
  {
    iso[8..] + "/" + iso[5..7] + "/" + iso[..4]
  }

  /** The ISO date of a booklet date: its year, month and day, reordered. */
  lemma IsoDateOf(d: DateText)
    ensures IsoDate(Some(d)) == d[6..] + "-" + d[3..5] + "-" + d[..2]
  {
    SplitDate(d);
  }

  lemma DateFromParts(y: string, m: string, j: string)
    requires |y| == 4 && |m| == 2 && |j| == 2
    ensures DateFromIso(y + "-" + m + "-" + j) == j + "/" + m + "/" + y
  {
    var iso := y + "-" + m + "-" + j;
    assert iso[8..] == j && iso[5..7] == m && iso[..4] == y;
  }

  /** The ISO date loses nothing of the booklet's date. */
  lemma IsoDateRoundTrip(d: DateText)
    ensures DateFromIso(IsoDate(Some(d))) == d
  {
    IsoDateOf(d);
    DateFromParts(d[6..], d[3..5], d[..2]);
    DateParts(d);
  }

  lemma DateParts(d: DateText)
    ensures d == d[..2] + "/" + d[3..5] + "/" + d[6..]
  {
    assert d == d[..2] + d[2..3] + d[3..5] + d[5..6] + d[6..];
    assert d[2..3] == [d[2]] == "/";
    assert d[5..6] == [d[5]] == "/";
  }

  /** What the hook derives from the whole booklet before storing anything:
      the blocks, one duty per block, the series list, the CTB tallies,
      the depot code and the ISO date. The depot code is read inside the
      block loop, so a booklet without blocks has none. */
  datatype Document = Document(
    blocks: seq<string>,
    duties: seq<Duty>,
    series: seq<string>,
    ctbFound: nat,
    ctbInText: nat,
    depotCode: Option<string>,
    date: string)

  /** One duty per block, in block order. */
  function Duties(p: Patterns, blocks: seq<string>): (ds: seq<Duty>)
    ensures |ds| == |blocks|
    ensures forall i :: 0 <= i < |blocks| ==> ds[i] == ExtractDuty(p, blocks[i])
  {
    seq(|blocks|, i requires 0 <= i < |blocks| => ExtractDuty(p, blocks[i]))
  }

  function ExtractDocument(p: Patterns, data: string): (doc: Document)
    ensures doc.blocks == Prestations.TextToPrestations(data)
    ensures |doc.duties| == |doc.blocks|
    ensures forall i :: 0 <= i < |doc.blocks| ==> doc.duties[i] == ExtractDuty(p, doc.blocks[i])
    ensures NoDuplicates(doc.series)
    ensures forall x :: x in doc.series <==> Mentioned(doc.duties, x)
    ensures doc.ctbFound == SumCtb(doc.duties)
    ensures doc.date == IsoDate(p.dateLivret(data))
    ensures |doc.blocks| > 0 ==> doc.depotCode == p.depot(data)
    ensures |doc.blocks| == 0 ==> doc.depotCode == None
    ensures doc.ctbInText == 0 <==> !Contains(data, "CTB")
    ensures doc.ctbInText == |Split(data, "CTB")| - 1
  {
    CountMatchesIsCuts(data, "CTB");
    var blocks := Prestations.TextToPrestations(data);
    var duties := Duties(p, blocks);
    Document(
      blocks := blocks,
      duties := duties,
      series := SeriesOf(duties),
      ctbFound := SumCtb(duties),
      ctbInText := CountMatches(data, "CTB"),
      depotCode := if |blocks| > 0 then p.depot(data) else None,
      date := IsoDate(p.dateLivret(data)))
  }

  /** The warning that not every CTB of the text was handled. */
  predicate CoverageWarning(doc: Document) {
    doc.ctbInText != doc.ctbFound
  }

  /** A booklet without any CTB warns exactly when some token was still
      counted; a booklet with CTB text but no block always warns. */
  lemma CoverageCases(p: Patterns, data: string)
    ensures var doc := ExtractDocument(p, data);
            !Contains(data, "CTB") ==> (CoverageWarning(doc) <==> doc.ctbFound != 0)
    ensures var doc := ExtractDocument(p, data);
            |doc.blocks| == 0 ==> (CoverageWarning(doc) <==> Contains(data, "CTB"))
  {
  }
}

=== FILE: jsstring.dfy ===
/** The handful of JavaScript string primitives the import pipeline relies
    on: `trim`, `split` on a literal, `>` between strings, `Number` of a
    digit string, `padStart`, `repeat`, and counting the matches of a
    literal pattern. Strings are sequences of characters; every character
    the pipeline compares or classifies lies in the Basic Multilingual
    Plane, where a character and a UTF-16 code unit coincide. */
module JsString {

  import opened Wrappers

  /** The characters JavaScript's `trim` removes and `\s` matches: the
      ECMAScript WhiteSpace and LineTerminator productions. */
  predicate IsSpace(c: char) {
    var n := c as int;
    n == 0x09 || n == 0x0B || n == 0x0C || n == 0x20 || n == 0xA0 || n == 0xFEFF
    || n == 0x1680 || (0x2000 <= n <= 0x200A) || n == 0x202F || n == 0x205F || n == 0x3000
    || n == 0x0A || n == 0x0D || n == 0x2028 || n == 0x2029
  }

  /** Every character is white space (true of the empty string). */
  predicate IsBlank(s: string) {
    forall i :: 0 <= i < |s| ==> IsSpace(s[i])
  }

  /** Neither end is white space: what `trim` leaves behind. */
  predicate IsTrimmed(s: string) {
    |s| == 0 || (!IsSpace(s[0]) && !IsSpace(s[|s| - 1]))
  }

  /** The first position at or after `i` that is not white space (or the
      end): where `trimStart` cuts. */
  function SkipSpaces(s: string, i: nat): (n: nat)
    requires i <= |s|
    ensures i <= n <= |s|
    ensures forall k :: i <= k < n ==> IsSpace(s[k])
    ensures n == |s| || !IsSpace(s[n])
    decreases |s| - i
  {
    if i < |s| && IsSpace(s[i]) then SkipSpaces(s, i + 1) else i
  }

  /** The end of `s[lo..j]` once the white space at its end is removed:
      where `trimEnd` cuts. */
  function SkipSpacesBack(s: string, lo: nat, j: nat): (e: nat)
    requires lo <= j <= |s|
    ensures lo <= e <= j
    ensures forall k :: e <= k < j ==> IsSpace(s[k])
    ensures e == lo || !IsSpace(s[e - 1])
    decreases j
  {
    if lo < j && IsSpace(s[j - 1]) then SkipSpacesBack(s, lo, j - 1) else j
  }

  /** Where the trimmed text starts inside the original. */
  function TrimOffset(s: string): nat {
    SkipSpaces(s, 0)
  }

  /** JavaScript's `String.prototype.trim`: the slice of `s` left once the
      white space at both ends is removed. */
  function Trim(s: string): (r: string)
    ensures IsTrimmed(r)
    ensures TrimOffset(s) + |r| <= |s| && r == s[TrimOffset(s)..TrimOffset(s) + |r|]
    ensures IsBlank(s[..TrimOffset(s)]) && IsBlank(s[TrimOffset(s) + |r|..])
  {
    var o := SkipSpaces(s, 0);
    var e := SkipSpacesBack(s, o, |s|);
    s[o..e]
  }

  /** `s.trim() !== ''` holds exactly when `s` has a non-space character. */
  lemma TrimEmpty(s: string)
    ensures Trim(s) == [] <==> IsBlank(s)
  {
    var o := SkipSpaces(s, 0);
    var e := SkipSpacesBack(s, o, |s|);
    if o < |s| {
      assert !IsSpace(s[o]);
      assert e > o;
    }
  }

  /** Trimming removes exactly the white space around trimmed text. */
  lemma TrimAround(a: string, m: string, b: string)
    requires IsBlank(a) && IsTrimmed(m) && IsBlank(b)
    ensures Trim(a + m + b) == m
  {
    var t := a + m + b;
    if |m| == 0 {
      assert t == a + b;
      TrimEmpty(t);
    } else {
      assert t[|a|] == m[0] && t[|a| + |m| - 1] == m[|m| - 1];
      var o := SkipSpaces(t, 0);
      assert o == |a|;
      var e := SkipSpacesBack(t, o, |t|);
      assert e == |a| + |m|;
      assert t[o..e] == m;
    }
  }

  /** Text that is already trimmed is its own trim. */
  lemma TrimFixesTrimmed(s: string)
    requires IsTrimmed(s)
    ensures Trim(s) == s
  {
    assert SkipSpaces(s, 0) == 0;
    assert SkipSpacesBack(s, 0, |s|) == |s|;
    assert s[0..|s|] == s;
  }

  /** The characters that are not white space, in order. */
  function NonSpace(s: string): string
    decreases |s|
  {
    if |s| == 0 then [] else (if IsSpace(s[0]) then [] else [s[0]]) + NonSpace(s[1..])
  }

  lemma {:induction false} NonSpaceAppend(a: string, b: string)
    ensures NonSpace(a + b) == NonSpace(a) + NonSpace(b)
    decreases |a|
  {
    if |a| > 0 {
      assert (a + b)[1..] == a[1..] + b;
      NonSpaceAppend(a[1..], b);
    } else {
      assert a + b == b;
    }
  }

  lemma {:induction false} BlankHasNoNonSpace(s: string)
    requires IsBlank(s)
    ensures NonSpace(s) == []
    decreases |s|
  {
    if |s| > 0 {
      BlankHasNoNonSpace(s[1..]);
    }
  }

  // ---------------------------------------------------------------------
  // Occurrences of a literal and `split` on it

  predicate OccursAt(s: string, pat: string, i: nat) {
    i + |pat| <= |s| && s[i..i + |pat|] == pat
  }

  predicate Contains(s: string, pat: string) {
    exists i: nat | i <= |s| :: OccursAt(s, pat, i)
  }

  /** An occurrence inside a slice is an occurrence inside the whole. */
  lemma ContainsSlice(s: string, lo: nat, hi: nat, pat: string)
    requires lo <= hi <= |s|
    requires Contains(s[lo..hi], pat)
    ensures Contains(s, pat)
  {
    var t := s[lo..hi];
    var i: nat :| i <= |t| && OccursAt(t, pat, i);
    var j: nat := lo + i;
    assert j + |pat| <= |s|;
    var u, v := s[j..j + |pat|], t[i..i + |pat|];
    assert forall k :: 0 <= k < |u| ==> u[k] == v[k];
    assert u == v;
    assert OccursAt(s, pat, j);
  }

  /** The first position at or after `from` where `pat` occurs. */
  function IndexOf(s: string, pat: string, from: nat): (r: Option<nat>)
    ensures r.Some? ==> from <= r.value && OccursAt(s, pat, r.value)
    ensures r.Some? ==> forall j: nat :: from <= j < r.value ==> !OccursAt(s, pat, j)
    ensures r.None? ==> forall j: nat :: from <= j ==> !OccursAt(s, pat, j)
    decreases |s| - from
  {
    if from + |pat| > |s| then None
    else if OccursAt(s, pat, from) then Some(from)
    else IndexOf(s, pat, from + 1)
  }

  /** `pieces[0] + sep + pieces[1] + ... + sep + pieces[n-1]`:
      `Array.prototype.join`. */
  function Join(pieces: seq<string>, sep: string): string
    decreases |pieces|
  {
    if |pieces| == 0 then []
    else if |pieces| == 1 then pieces[0]
    else pieces[0] + sep + Join(pieces[1..], sep)
  }

  /** `String.prototype.split` with a non-empty literal separator: the text
      between successive leftmost occurrences. The pieces never contain the
      separator and joining them back with it gives the input. */
  function Split(s: string, sep: string): (r: seq<string>)
    requires |sep| > 0
    ensures |r| >= 1
    ensures forall k :: 0 <= k < |r| ==> !Contains(r[k], sep)
    ensures Join(r, sep) == s
    decreases |s|
  {
    match IndexOf(s, sep, 0)
    case None => [s]
    case Some(i) =>
      var head := s[..i];
      var rest := Split(s[i + |sep|..], sep);
      assert !Contains(head, sep) by {
        if Contains(head, sep) {
          var j: nat :| j <= |head| && OccursAt(head, sep, j);
          SliceOfPrefix(s, i, j, |sep|);
          assert OccursAt(s, sep, j);
        }
      }
      assert s == head + sep + s[i + |sep|..];
      [head] + rest
  }

  /** Concatenation regrouped; stated once so that a proof in a large
      context need not rediscover it. */
  lemma AppendAssoc<T>(a: seq<T>, b: seq<T>, c: seq<T>)
    ensures a + b + c == a + (b + c)
  {
  }

  lemma SliceOfPrefix(s: string, i: nat, j: nat, n: nat)
    requires j + n <= i <= |s|
    ensures s[..i][j..j + n] == s[j..j + n]
  {
  }

  /** An occurrence with none before it is the one `indexOf` finds. */
  lemma FirstOccurrence(t: string, pat: string, i: nat)
    requires OccursAt(t, pat, i)
    requires forall j: nat :: j < i ==> !OccursAt(t, pat, j)
    ensures IndexOf(t, pat, 0) == Some(i)
  {
  }

  /** The text before the first occurrence, with the separator put back,
      has its first occurrence at its end. */
  lemma HeadLeftmost(s: string, sep: string, i: nat)
    requires IndexOf(s, sep, 0) == Some(i)
    ensures IndexOf(s[..i] + sep, sep, 0) == Some(i)
  {
    var t := s[..i] + sep;
    assert t == s[..i + |sep|];
    assert OccursAt(t, sep, i);
    forall j: nat | j < i
      ensures !OccursAt(t, sep, j)
    {
      assert !OccursAt(s, sep, j);
    }
    FirstOccurrence(t, sep, i);
  }

  /** `split` cuts at the leftmost occurrences: every piece but the last,
      followed by the separator, holds its first occurrence right at its
      end. This is what decides where a self-overlapping separator cuts. */
  lemma {:induction false} SplitLeftmost(s: string, sep: string)
    requires |sep| > 0
    ensures var r := Split(s, sep);
            forall k :: 0 <= k < |r| - 1 ==> IndexOf(r[k] + sep, sep, 0) == Some(|r[k]|)
    decreases |s|
  {
    var r := Split(s, sep);
    match IndexOf(s, sep, 0)
    case None =>
    case Some(i) =>
      var head := s[..i];
      var tail := s[i + |sep|..];
      SplitLeftmost(tail, sep);
      assert r == [head] + Split(tail, sep);
      HeadLeftmost(s, sep, i);
      forall k | 0 <= k < |r| - 1
        ensures IndexOf(r[k] + sep, sep, 0) == Some(|r[k]|)
      {
        if k > 0 {
          assert r[k] == Split(tail, sep)[k - 1];
        }
      }
  }

  /** Splitting text that does not contain the separator yields the text. */
  lemma {:induction false} SplitWithoutSeparator(s: string, sep: string)
    requires |sep| > 0 && !Contains(s, sep)
    ensures Split(s, sep) == [s]
  {
  }

  // ---------------------------------------------------------------------
  // Flattening a list of strings

  function Concat(ss: seq<string>): string
    decreases |ss|
  {
    if |ss| == 0 then [] else ss[0] + Concat(ss[1..])
  }

  lemma {:induction false} ConcatAppend(a: seq<string>, b: seq<string>)
    ensures Concat(a + b) == Concat(a) + Concat(b)
    decreases |a|
  {
    if |a| == 0 {
      assert a + b == b;
    } else {
      assert (a + b)[1..] == a[1..] + b;
      ConcatAppend(a[1..], b);
    }
  }

  // ---------------------------------------------------------------------
  // Digits, `Number` and lexicographic comparison

  predicate IsDigit(c: char) {
    '0' <= c <= '9'
  }

  predicate IsDigits(s: string) {
    forall i :: 0 <= i < |s| ==> IsDigit(s[i])
  }

  /** A string the pattern `\d{2}` matched. */
  type Digits2 = s: string | |s| == 2 && IsDigits(s) witness "00"

  /** A string the pattern `\d+` matched. */
  type DigitRun = s: string | |s| >= 1 && IsDigits(s) witness "0"

  function DigitValue(c: char): nat
    requires IsDigit(c)
  {
    c as int - '0' as int
  }

  /** `Number(s)` for a string of ASCII digits (0 for the empty string, as
      in JavaScript): its decimal value. */
  function Number(s: string): (r: nat)
    requires IsDigits(s)
    ensures |s| == 1 ==> r == DigitValue(s[0])
    decreases |s|
  {
    if |s| == 0 then 0 else 10 * Number(s[..|s| - 1]) + DigitValue(s[|s| - 1])
  }

  lemma NumberOfTwoDigits(s: Digits2)
    ensures Number(s) == 10 * DigitValue(s[0]) + DigitValue(s[1])
    ensures Number(s) <= 99
  {
    assert s[..1] == [s[0]];
  }

  /** The digits `\d{0,max}` matches greedily from `i`. */
  function DigitsFrom(s: string, i: nat, max: nat): (n: nat)
    requires i <= |s|
    ensures n <= max && i + n <= |s|
    ensures forall k :: i <= k < i + n ==> IsDigit(s[k])
    ensures n == max || i + n == |s| || !IsDigit(s[i + n])
    decreases max
  {
    if max > 0 && i < |s| && IsDigit(s[i]) then 1 + DigitsFrom(s, i + 1, max - 1) else 0
  }

  /** JavaScript's `a < b` on strings: the first differing code unit
      decides, and a proper prefix is smaller. */
  predicate LexLess(a: string, b: string)
    decreases |a|
  {
    if |a| == 0 then |b| > 0
    else if |b| == 0 then false
    else if a[0] < b[0] then true
    else if a[0] > b[0] then false
    else LexLess(a[1..], b[1..])
  }

  /** On two-digit strings, string order is numeric order. */
  lemma TwoDigitOrder(a: Digits2, b: Digits2)
    ensures LexLess(a, b) <==> Number(a) < Number(b)
  {
    NumberOfTwoDigits(a);
    NumberOfTwoDigits(b);
    var a1, b1 := a[1..], b[1..];
    assert LexLess(a1, b1) <==> a1[0] < b1[0] by {
      assert a1[1..] == [] && b1[1..] == [];
    }
    assert LexLess(a, b) <==> a[0] < b[0] || (a[0] == b[0] && LexLess(a1, b1));
  }

  // ---------------------------------------------------------------------
  // `padStart`, `repeat`, counting matches

  /** `s.padStart(n, c)` with a one-character filler. */
  function PadStart(s: string, n: nat, c: char): (r: string)
    ensures |r| == if |s| >= n then |s| else n
    ensures r[|r| - |s|..] == s
    ensures forall i :: 0 <= i < |r| - |s| ==> r[i] == c
  {
    if |s| >= n then s else seq(n - |s|, _ => c) + s
  }

  /** `c.repeat(n)` for a one-character string. */
  function Repeat(c: char, n: nat): (r: string)
    ensures |r| == n && forall i :: 0 <= i < n ==> r[i] == c
  {
    seq(n, _ => c)
  }

  /** The length of `s.match(/pat/g)` (0 when it is `null`) for a literal
      pattern: non-overlapping occurrences found left to right. */
  function CountMatches(s: string, pat: string): (r: nat)
    requires |pat| > 0
    ensures r == 0 <==> !Contains(s, pat)
    decreases |s|
  {
    if |s| < |pat| then
      0
    else if s[..|pat|] == pat then
      assert OccursAt(s, pat, 0);
      1 + CountMatches(s[|pat|..], pat)
    else
      var n := CountMatches(s[1..], pat);
      assert Contains(s[1..], pat) <==> Contains(s, pat) by {
        if Contains(s, pat) {
          var i: nat :| i <= |s| && OccursAt(s, pat, i);
          assert i != 0;
          var t := s[1..];
          assert i - 1 + |pat| <= |t|;
          assert t[i - 1..i - 1 + |pat|] == s[i..i + |pat|];
          assert OccursAt(t, pat, i - 1);
        }
        if Contains(s[1..], pat) {
          assert s[1..|s|] == s[1..];
          ContainsSlice(s, 1, |s|, pat);
        }
      }
      n
  }

  /** Text before the first occurrence adds no match. */
  lemma {:induction false} CountSkip(s: string, pat: string, i: nat)
    requires |pat| > 0 && i <= |s|
    requires forall j: nat :: j < i ==> !OccursAt(s, pat, j)
    ensures CountMatches(s, pat) == CountMatches(s[i..], pat)
    decreases i
  {
    if i > 0 && |s| >= |pat| {
      assert !OccursAt(s, pat, 0);
      var t := s[1..];
      forall j: nat | j < i - 1
        ensures !OccursAt(t, pat, j)
      {
        if OccursAt(t, pat, j) {
          assert t[j..j + |pat|] == s[j + 1..j + 1 + |pat|];
          assert OccursAt(s, pat, j + 1);
        }
      }
      CountSkip(t, pat, i - 1);
      assert t[i - 1..] == s[i..];
    } else if i > 0 {
      assert |s[i..]| < |pat|;
    }
  }

  /** The number of matches is the number of cuts `split` makes: the
      occurrences found left to right, none overlapping the one before. */
  lemma {:induction false} CountMatchesIsCuts(s: string, pat: string)
    requires |pat| > 0
    ensures CountMatches(s, pat) == |Split(s, pat)| - 1
    decreases |s|
  {
    match IndexOf(s, pat, 0)
    case None =>
      assert !Contains(s, pat);
    case Some(i) =>
      var tail := s[i + |pat|..];
      CountSkip(s, pat, i);
      var u := s[i..];
      assert u[..|pat|] == pat;
      assert u[|pat|..] == tail;
      CountMatchesIsCuts(tail, pat);
  }
}

=== FILE: normalize.dfy ===
/** `parseOdtToText`: turning the `content.xml` of an OpenDocument text file
    into one line of plain text. Each step of the source is a global
    `String.prototype.replace` with a regular expression. The model gives,
    for every one of those expressions, the match the JavaScript
    backtracking engine finds at a given position. One generic left-to-right
    scan then performs any of the replacements. Entity decoding belongs to a
    library and is a parameter. */
module Normalize {

  import opened Wrappers
  import opened JsString

  /** The regular expressions of the normaliser, in the order applied. */
  datatype Rule =
    | CountedSpaces   // <text:s[^>]*text:c="(\d+)"[^>]*\/>  ->  N spaces
    | SpaceElement    // <text:s(?:\s+[^>]*)?\/>             ->  one space
    | TabElement      // <text:tab(?:\s+[^>]*)?\/>           ->  one tab
    | ParagraphEnd    // <\/text:p>                          ->  one space
    | HeadingEnd      // <\/text:h>                          ->  one space
    | AnyTag          // <[^>]+>                             ->  nothing
    | WhiteRun        // \s+                                 ->  one space

  /** A match at the start of the remaining text: how many characters it
      consumes and the text that replaces them. */
  datatype Match = Match(length: nat, replacement: string)

  predicate StartsWith(t: string, prefix: string) {
    |prefix| <= |t| && t[..|prefix|] == prefix
  }

  /** The first `c` at or after `from`. */
  function FindChar(t: string, c: char, from: nat): (r: Option<nat>)
    ensures r.Some? ==> from <= r.value < |t| && t[r.value] == c
    ensures r.Some? ==> forall j :: from <= j < r.value ==> t[j] != c
    ensures r.None? ==> forall j :: from <= j < |t| ==> t[j] != c
    decreases |t| - from
  {
    if from >= |t| then None
    else if t[from] == c then Some(from)
    else FindChar(t, c, from + 1)
  }

  /** The white space `\s+` matches greedily from `i`. */
  function BlankRun(t: string, i: nat): (n: nat)
    requires i <= |t|
    ensures i + n <= |t|
    ensures forall k :: i <= k < i + n ==> IsSpace(t[k])
    ensures i + n == |t| || !IsSpace(t[i + n])
    decreases |t| - i
  {
    if i < |t| && IsSpace(t[i]) then 1 + BlankRun(t, i + 1) else 0
  }

  /** `text:c="` followed by `\d+` and `"` at `k`, closing strictly before
      the slash at `slash`: the end of the digits. */
  function CountAttrAt(t: string, k: nat, slash: nat): (q: Option<nat>)
    requires slash < |t|
    ensures q.Some? ==> k + 9 <= q.value < slash && IsDigits(t[k + 8..q.value])
    ensures q.Some? ==> t[k..k + 8] == "text:c=\"" && t[q.value] == '"'
  {
    if k + 8 > slash || t[k..k + 8] != "text:c=\"" then None
    else
      var d := DigitsFrom(t, k + 8, slash - (k + 8));
      var q := k + 8 + d;
      if d >= 1 && q < slash && t[q] == '"' then Some(q) else None
  }

  /** `text:c="` then the digits `t[a..b]` then `"`, all after `<text:s`. */
  predicate CountAttrSpan(t: string, a: nat, b: nat) {
    15 <= a < b < |t| && t[a - 8..a] == "text:c=\"" && IsDigits(t[a..b]) && t[b] == '"'
  }

  /** The attribute the counted-space rule captures. The greedy `[^>]*`
      in front of `text:c=` gives back as little as it can, so the last
      attribute that fits wins: search from the slash backwards, down to
      the end of `<text:s`. */
  function LastCountAttr(t: string, slash: nat, k: nat): (r: Option<(nat, nat)>)
    requires slash < |t| && 7 <= k
    ensures r.Some? ==> CountAttrSpan(t, r.value.0, r.value.1) && r.value.1 < slash
    decreases k
  {
    match CountAttrAt(t, k, slash)
    case Some(q) => Some((k + 8, q))
    case None => if k == 7 then None else LastCountAttr(t, slash, k - 1)
  }

  /** An empty element `<name/>` or `<name attributes/>`: either `/>` right
      after the name, or white space after it and a slash just before the
      first `>`. */
  function EmptyElementAt(t: string, name: string, out: char): (r: Option<Match>)
    ensures r.Some? ==> |name| + 2 <= r.value.length <= |t| && StartsWith(t, name)
    ensures r.Some? ==> r.value.replacement == [out]
  {
    var k := |name|;
    if !StartsWith(t, name) then None
    else if k < |t| && IsSpace(t[k]) then
      (match FindChar(t, '>', k + 1)
       case None => None
       case Some(e) => if e >= k + 2 && t[e - 1] == '/' then Some(Match(e + 1, [out])) else None)
    else if k + 2 <= |t| && t[k..k + 2] == "/>" then Some(Match(k + 2, [out]))
    else None
  }

  /** The element's first `>` is at `e`, with the slash right before it. */
  predicate ClosesAt(t: string, e: nat) {
    8 <= e < |t| && t[e] == '>' && t[e - 1] == '/' && forall j :: 0 <= j < e ==> t[j] != '>'
  }

  /** `<text:s[^>]*text:c="(\d+)"[^>]*\/>`: the element must close with
      `/>` at its first `>`, and the captured count becomes that many
      spaces. */
  function CountedSpacesAt(t: string): (r: Option<Match>)
    ensures r.Some? ==> 9 <= r.value.length <= |t| && StartsWith(t, "<text:s") && t[0] == '<'
    ensures r.Some? ==> t[r.value.length - 2..r.value.length] == "/>"
    ensures r.Some? ==> ClosesAt(t, r.value.length - 1)
    ensures r.Some? ==> exists a: nat, b: nat :: CountAttrSpan(t, a, b) && b < r.value.length - 2
                                                 && r.value.replacement == Repeat(' ', Number(t[a..b]))
  {
    if !StartsWith(t, "<text:s") then None
    else
      assert t[0] == t[..7][0];
      match FindChar(t, '>', 7)
      case None => None
      case Some(e) =>
        if e < 8 || t[e - 1] != '/' then None
        else
          match LastCountAttr(t, e - 1, e - 1)
          case None => None
          case Some(bounds) =>
            assert t[e - 1..e + 1] == "/>";
            assert forall j :: 0 <= j < 7 ==> t[j] == t[..7][j];
            Some(Match(e + 1, Repeat(' ', Number(t[bounds.0..bounds.1]))))
  }

  /** A digit run ended by a non-digit inside the window is read whole. */
  lemma {:induction false} DigitsFromRun(t: string, a: nat, b: nat, max: nat)
    requires a <= b < |t| && IsDigits(t[a..b]) && !IsDigit(t[b]) && b - a < max
    ensures DigitsFrom(t, a, max) == b - a
    decreases b - a
  {
    if a < b {
      assert t[a] == t[a..b][0];
      assert t[a + 1..b] == t[a..b][1..];
      DigitsFromRun(t, a + 1, b, max - 1);
    }
  }

  /** The attribute test finds every attribute that fits before the slash. */
  lemma CountAttrAtFinds(t: string, k: nat, slash: nat, b: nat)
    requires slash < |t| && CountAttrSpan(t, k + 8, b) && b < slash
    ensures CountAttrAt(t, k, slash) == Some(b)
  {
    assert !IsDigit(t[b]);
    DigitsFromRun(t, k + 8, b, slash - (k + 8));
  }

  /** The backward search returns the last attribute that fits: the one
      starting at `a` when none fits further right. */
  lemma {:induction false} LastCountAttrFinds(t: string, slash: nat, k: nat, a: nat, b: nat)
    requires slash < |t| && 7 <= a - 8 <= k
    requires CountAttrSpan(t, a, b) && b < slash
    requires forall a2: nat, b2: nat :: a < a2 && CountAttrSpan(t, a2, b2) ==> slash <= b2
    ensures LastCountAttr(t, slash, k) == Some((a, b))
    decreases k
  {
    if k == a - 8 {
      CountAttrAtFinds(t, k, slash, b);
    } else {
      match CountAttrAt(t, k, slash)
      case Some(q) =>
        assert CountAttrSpan(t, k + 8, q);
        assert false;
      case None =>
        LastCountAttrFinds(t, slash, k - 1, a, b);
    }
  }

  /** The converse of the rule's contract, with the capture it takes: an
      element `<text:s .../>` whose first `>` follows a slash, holding a
      count attribute before that slash, is replaced by as many spaces as
      the LAST such attribute says. */
  lemma CountedSpacesUsesLast(t: string, e: nat, a: nat, b: nat)
    requires StartsWith(t, "<text:s") && ClosesAt(t, e)
    requires CountAttrSpan(t, a, b) && b < e - 1
    requires forall a2: nat, b2: nat :: a < a2 && CountAttrSpan(t, a2, b2) ==> e - 1 <= b2
    ensures CountedSpacesAt(t) == Some(Match(e + 1, Repeat(' ', Number(t[a..b]))))
  {
    assert 7 <= e && t[e] == '>';
    assert FindChar(t, '>', 7) == Some(e);
    LastCountAttrFinds(t, e - 1, e - 1, a, b);
    CountedSpacesRead(t, e, (a, b));
  }

  /** The rule once the closing `/>` and the last count attribute are found. */
  lemma CountedSpacesRead(t: string, e: nat, bounds: (nat, nat))
    requires StartsWith(t, "<text:s") && FindChar(t, '>', 7) == Some(e)
    requires 8 <= e && t[e - 1] == '/' && LastCountAttr(t, e - 1, e - 1) == Some(bounds)
    ensures bounds.0 <= bounds.1 < |t|
    ensures CountedSpacesAt(t) == Some(Match(e + 1, Repeat(' ', Number(t[bounds.0..bounds.1]))))
  {
  }

  /** A fixed closing tag, replaced by one space. */
  function ClosingTagAt(t: string, tag: string): (r: Option<Match>)
    requires |tag| > 0 && tag[0] == '<'
    ensures r.Some? ==> r.value.length == |tag| <= |t| && t[0] == '<'
  {
    if StartsWith(t, tag) then
      assert t[0] == t[..|tag|][0];
      Some(Match(|tag|, " "))
    else None
  }

  /** `<[^>]+>`: a `<`, at least one other character, up to the first `>`;
      removed. */
  function TagAt(t: string): (r: Option<Match>)
    ensures r.Some? ==> 3 <= r.value.length <= |t| && t[0] == '<' && r.value.replacement == []
  {
    if |t| == 0 || t[0] != '<' then None
    else
      match FindChar(t, '>', 1)
      case None => None
      case Some(e) => if e >= 2 then Some(Match(e + 1, [])) else None
  }

  /** `\s+`: the whole run of white space, replaced by one space. */
  function WhiteRunAt(t: string): (r: Option<Match>)
    ensures r.Some? ==> 1 <= r.value.length <= |t|
  {
    if |t| > 0 && IsSpace(t[0]) then Some(Match(BlankRun(t, 0), " ")) else None
  }

  /** The match of `rule` at the start of `t`, as the JavaScript engine
      finds it, or `None` when the expression fails there. Every markup rule
      needs a `<` to start. */
  function MatchAt(rule: Rule, t: string): (r: Option<Match>)
    ensures r.Some? ==> 1 <= r.value.length <= |t|
    ensures r.Some? && rule != WhiteRun ==> t[0] == '<'
  {
    match rule
    case CountedSpaces => CountedSpacesAt(t)
    case SpaceElement =>
      var r := EmptyElementAt(t, "<text:s", ' ');
      assert r.Some? ==> t[0] == t[..7][0];
      r
    case TabElement =>
      var r := EmptyElementAt(t, "<text:tab", '\t');
      assert r.Some? ==> t[0] == t[..9][0];
      r
    case ParagraphEnd => ClosingTagAt(t, "</text:p>")
    case HeadingEnd => ClosingTagAt(t, "</text:h>")
    case AnyTag => TagAt(t)
    case WhiteRun => WhiteRunAt(t)
  }

  /** `s.replace(/rule/g, …)`: from left to right, replace the match at the
      first position where the rule matches and resume after it. A markup
      rule leaves text without `<` alone. */
  function Replace(rule: Rule, s: string): (r: string)
    ensures rule != WhiteRun && '<' !in s ==> r == s
    decreases |s|
  {
    if |s| == 0 then []
    else
      match MatchAt(rule, s)
      case Some(m) => m.replacement + Replace(rule, s[m.length..])
      case None => [s[0]] + Replace(rule, s[1..])
  }

  // ---------------------------------------------------------------------
  // Steps 1-5: markup

  /** No position of `t` starts a tag `<[^>]+>`. */
  predicate TagFree(t: string) {
    forall i :: 0 <= i < |t| ==> TagAt(t[i..]).None?
  }

  /** Text without `>` holds no tag, so removing tags keeps it whole. */
  lemma {:induction false} NoCloserKept(s: string)
    requires '>' !in s
    ensures Replace(AnyTag, s) == s
    decreases |s|
  {
    if |s| > 0 {
      assert '>' !in s[1..];
      NoCloserKept(s[1..]);
      assert TagAt(s).None?;
    }
  }

  /** Removing tags leaves none behind: a `<` that survives is either
      never closed or closed at once by `<>`. */
  lemma {:induction false} TagsGone(s: string)
    ensures TagFree(Replace(AnyTag, s))
    decreases |s|
  {
    var r := Replace(AnyTag, s);
    if |s| > 0 {
      match MatchAt(AnyTag, s)
      case Some(m) =>
        TagsGone(s[m.length..]);
        assert r == Replace(AnyTag, s[m.length..]);
      case None =>
        var rest := Replace(AnyTag, s[1..]);
        TagsGone(s[1..]);
        assert r == [s[0]] + rest;
        forall i | 0 <= i < |r|
          ensures TagAt(r[i..]).None?
        {
          if i > 0 {
            assert r[i..] == rest[i - 1..];
          } else if s[0] == '<' {
            match FindChar(s, '>', 1)
            case None =>
              assert '>' !in s[1..];
              NoCloserKept(s[1..]);
              assert r[i..] == s;
            case Some(e) =>
              assert e == 1;
              assert TagAt(s[1..]).None?;
              assert rest[0] == '>';
              assert r[1] == '>';
              assert FindChar(r, '>', 1) == Some(1);
              assert r[i..] == r;
          }
        }
    }
  }

  /** Steps 1 to 5: expand counted spaces, single spaces and tabs, end
      paragraphs and headings with a space, then drop every other tag. */
  function StripMarkup(xml: string): (r: string)
    ensures TagFree(r)
    ensures '<' !in xml ==> r == xml
  {
    var x1 := Replace(CountedSpaces, xml);
    var x2 := Replace(SpaceElement, x1);
    var x3 := Replace(TabElement, x2);
    var x4 := Replace(ParagraphEnd, x3);
    var x5 := Replace(HeadingEnd, x4);
    TagsGone(x5);
    Replace(AnyTag, x5)
  }

  // ---------------------------------------------------------------------
  // Steps 1-5, piece by piece

  /** The five markup rewrites in the order applied. */
  const MarkupRules: seq<Rule> := [CountedSpaces, SpaceElement, TabElement, ParagraphEnd, HeadingEnd, AnyTag]

  /** Each rule of `rules` applied in turn to the whole text. */
  function ReplaceAll(rules: seq<Rule>, s: string): string
    decreases |rules|
  {
    if |rules| == 0 then s else ReplaceAll(rules[1..], Replace(rules[0], s))
  }

  lemma StripIsReplaceAll(xml: string)
    ensures StripMarkup(xml) == ReplaceAll(MarkupRules, xml)
  {
    var rs := MarkupRules;
    assert rs[1..][1..][1..][1..][1..][1..] == [];
  }

  /** Text without `<` passes a markup rule untouched, whatever follows. */
  lemma {:induction false} ReplacePlain(rule: Rule, x: string, y: string)
    requires rule != WhiteRun && '<' !in x
    ensures Replace(rule, x + y) == x + Replace(rule, y)
    decreases |x|
  {
    if |x| > 0 {
      var t := x + y;
      assert t[0] == x[0] != '<';
      assert MatchAt(rule, t) == None;
      assert t[1..] == x[1..] + y;
      assert '<' !in x[1..];
      ReplacePlain(rule, x[1..], y);
      assert Replace(rule, t) == [x[0]] + (x[1..] + Replace(rule, y));
      AppendAssoc([x[0]], x[1..], Replace(rule, y));
      assert [x[0]] + x[1..] == x;
    } else {
      assert x + y == y;
    }
  }

  lemma {:induction false} PlainThroughAll(rules: seq<Rule>, x: string, y: string)
    requires WhiteRun !in rules && '<' !in x
    ensures ReplaceAll(rules, x + y) == x + ReplaceAll(rules, y)
    decreases |rules|
  {
    if |rules| > 0 {
      ReplacePlain(rules[0], x, y);
      PlainThroughAll(rules[1..], x, Replace(rules[0], y));
    }
  }

  /** The element `e` with the rest of the text `z` after it. */
  function After(e: string, z: string): string {
    e + z
  }

  /** `rule` never matches at the start of `e`, whatever follows it. */
  ghost predicate Unmatched(rule: Rule, e: string) {
    forall z {:trigger After(e, z)} :: MatchAt(rule, After(e, z)) == None
  }

  /** `rule` matches exactly `e` and replaces it by `out`, whatever follows
      it. */
  ghost predicate Hits(rule: Rule, e: string, out: string) {
    forall z {:trigger After(e, z)} :: MatchAt(rule, After(e, z)) == Some(Match(|e|, out))
  }

  /** A rule that does not match at the element's `<` leaves the element
      in front of the rest. */
  lemma PassStep(rule: Rule, e: string, y: string)
    requires rule != WhiteRun && |e| > 0 && '<' !in e[1..]
    requires MatchAt(rule, e + y) == None
    ensures Replace(rule, e + y) == e + Replace(rule, y)
  {
    var t := e + y;
    assert t[1..] == e[1..] + y;
    ReplacePlain(rule, e[1..], y);
    AppendAssoc([e[0]], e[1..], Replace(rule, y));
    assert [e[0]] + e[1..] == e;
  }

  /** A rule that matches exactly the element puts its replacement in
      front of the rest. */
  lemma HitStep(rule: Rule, e: string, out: string, y: string)
    requires |e| > 0 && MatchAt(rule, e + y) == Some(Match(|e|, out))
    ensures Replace(rule, e + y) == out + Replace(rule, y)
  {
    assert (e + y)[|e|..] == y;
  }

  /** An element that the first `k` rules leave alone and rule `k` replaces
      by `out`: the rules turn it into `out` and the rest of the text as
      if the element were not there. */
  lemma {:induction false} ElementThroughAll(rules: seq<Rule>, e: string, out: string, k: nat, y: string)
    requires WhiteRun !in rules && k < |rules|
    requires |e| > 0 && '<' !in e[1..] && '<' !in out
    requires forall i :: 0 <= i < k ==> Unmatched(rules[i], e)
    requires Hits(rules[k], e, out)
    ensures ReplaceAll(rules, e + y) == out + ReplaceAll(rules, y)
    decreases k
  {
    var y1 := Replace(rules[0], y);
    var later := rules[1..];
    assert forall i :: 0 <= i < |later| ==> later[i] == rules[i + 1];
    assert WhiteRun !in later;
    assert After(e, y) == e + y;
    if k == 0 {
      HitStep(rules[0], e, out, y);
      PlainThroughAll(later, out, y1);
    } else {
      assert Unmatched(rules[0], e);
      PassStep(rules[0], e, y);
      assert Hits(later[k - 1], e, out);
      forall i | 0 <= i < k - 1
        ensures Unmatched(later[i], e)
      {
        assert later[i] == rules[i + 1];
      }
      ElementThroughAll(later, e, out, k - 1, y1);
    }
  }

  /** Text that differs from `prefix` at position `i` does not start with
      it. */
  lemma Differs(t: string, prefix: string, i: nat)
    requires i < |prefix| && i < |t| && t[i] != prefix[i]
    ensures !StartsWith(t, prefix)
  {
    if |prefix| <= |t| { assert t[..|prefix|][i] == t[i]; }
  }

  /** A piece of `content.xml` as the normaliser sees it. */
  datatype Piece =
    | Chars(text: string)       // character data
    | ParagraphStart            // <text:p>
    | ParagraphClose            // </text:p>
    | HeadingClose              // </text:h>
    | SpaceMark                 // <text:s/>
    | TabMark                   // <text:tab/>
    | SpaceRun(digit: char)     // <text:s text:c="d"/>

  /** Character data holds no `<` (the document escapes it as `&lt;`); a
      counted space has a one-digit count. */
  predicate ValidPiece(p: Piece) {
    match p
    case Chars(text) => '<' !in text
    case SpaceRun(d) => IsDigit(d)
    case _ => true
  }

  function PieceXml(p: Piece): string {
    match p
    case Chars(text) => text
    case ParagraphStart => "<text:p>"
    case ParagraphClose => "</text:p>"
    case HeadingClose => "</text:h>"
    case SpaceMark => "<text:s/>"
    case TabMark => "<text:tab/>"
    case SpaceRun(d) => "<text:s text:c=\"" + [d] + "\"/>"
  }

  /** What a reader of the document sees for the piece. */
  function PieceText(p: Piece): string
    requires ValidPiece(p)
  {
    match p
    case Chars(text) => text
    case ParagraphStart => ""
    case ParagraphClose => " "
    case HeadingClose => " "
    case SpaceMark => " "
    case TabMark => "\t"
    case SpaceRun(d) => Repeat(' ', DigitValue(d))
  }

  function Xml(ps: seq<Piece>): string
    decreases |ps|
  {
    if |ps| == 0 then [] else PieceXml(ps[0]) + Xml(ps[1..])
  }

  function PlainText(ps: seq<Piece>): string
    requires forall i :: 0 <= i < |ps| ==> ValidPiece(ps[i])
    decreases |ps|
  {
    if |ps| == 0 then [] else PieceText(ps[0]) + PlainText(ps[1..])
  }

  lemma ParagraphStartRules()
    ensures Unmatched(CountedSpaces, "<text:p>") && Unmatched(SpaceElement, "<text:p>")
    ensures Unmatched(TabElement, "<text:p>") && Unmatched(ParagraphEnd, "<text:p>")
    ensures Unmatched(HeadingEnd, "<text:p>") && Hits(AnyTag, "<text:p>", "")
  {
    var e := "<text:p>";
    forall z
      ensures MatchAt(CountedSpaces, After(e, z)) == None && MatchAt(SpaceElement, After(e, z)) == None
      ensures MatchAt(TabElement, After(e, z)) == None && MatchAt(ParagraphEnd, After(e, z)) == None
      ensures MatchAt(HeadingEnd, After(e, z)) == None && MatchAt(AnyTag, After(e, z)) == Some(Match(8, ""))
    {
      var t := After(e, z);
      assert t[1] == 't' && t[6] == 'p' && t[7] == '>';
      Differs(t, "<text:s", 6);
      Differs(t, "<text:tab", 6);
      Differs(t, "</text:p>", 1);
      Differs(t, "</text:h>", 1);
      assert FindChar(t, '>', 1) == Some(7);
    }
  }

  lemma ClosingRules(e: string, rule: Rule)
    requires (e == "</text:p>" && rule == ParagraphEnd) || (e == "</text:h>" && rule == HeadingEnd)
    ensures Unmatched(CountedSpaces, e) && Unmatched(SpaceElement, e) && Unmatched(TabElement, e)
    ensures Hits(rule, e, " ")
    ensures rule == HeadingEnd ==> Unmatched(ParagraphEnd, e)
  {
    forall z
      ensures MatchAt(CountedSpaces, After(e, z)) == None && MatchAt(SpaceElement, After(e, z)) == None
      ensures MatchAt(TabElement, After(e, z)) == None && MatchAt(rule, After(e, z)) == Some(Match(9, " "))
      ensures rule == HeadingEnd ==> MatchAt(ParagraphEnd, After(e, z)) == None
    {
      var t := After(e, z);
      assert t[1] == '/' && t[7] == e[7] && t[..9] == e;
      Differs(t, "<text:s", 1);
      Differs(t, "<text:tab", 1);
      if rule == HeadingEnd { Differs(t, "</text:p>", 7); }
    }
  }

  lemma SpaceMarkRules()
    ensures Unmatched(CountedSpaces, "<text:s/>") && Hits(SpaceElement, "<text:s/>", " ")
  {
    var e := "<text:s/>";
    forall z
      ensures MatchAt(CountedSpaces, After(e, z)) == None && MatchAt(SpaceElement, After(e, z)) == Some(Match(9, " "))
    {
      var t := After(e, z);
      assert t[..9] == e && t[..7] == "<text:s" && t[7..9] == "/>";
      assert FindChar(t, '>', 7) == Some(8);
      assert LastCountAttr(t, 7, 7) == None;
    }
  }

  lemma TabMarkRules()
    ensures Unmatched(CountedSpaces, "<text:tab/>") && Unmatched(SpaceElement, "<text:tab/>")
    ensures Hits(TabElement, "<text:tab/>", "\t")
  {
    var e := "<text:tab/>";
    forall z
      ensures MatchAt(CountedSpaces, After(e, z)) == None && MatchAt(SpaceElement, After(e, z)) == None
      ensures MatchAt(TabElement, After(e, z)) == Some(Match(11, "\t"))
    {
      var t := After(e, z);
      assert t[..11] == e && t[..9] == "<text:tab" && t[9..11] == "/>";
      Differs(t, "<text:s", 6);
    }
  }

  lemma SpaceRunRules(d: char)
    requires IsDigit(d)
    ensures Hits(CountedSpaces, PieceXml(SpaceRun(d)), Repeat(' ', DigitValue(d)))
  {
    var e := PieceXml(SpaceRun(d));
    forall z
      ensures MatchAt(CountedSpaces, After(e, z)) == Some(Match(20, Repeat(' ', DigitValue(d))))
    {
      SpaceRunMatch(d, z);
    }
  }

  /** The counted-space rule on one run of `d` spaces, whatever follows. */
  lemma SpaceRunMatch(d: char, z: string)
    requires IsDigit(d)
    ensures MatchAt(CountedSpaces, After(PieceXml(SpaceRun(d)), z)) == Some(Match(20, Repeat(' ', DigitValue(d))))
  {
    var e := PieceXml(SpaceRun(d));
    var head := "<text:s text:c=\"";
    var t := After(e, z);
    assert t[..20] == e;
    assert t[..16] == head;
    assert t[..7] == "<text:s" && t[16] == d && t[17] == '"' && t[18] == '/' && t[19] == '>';
    assert FindChar(t, '>', 7) == Some(19);
    assert t[8..16] == head[8..16] == "text:c=\"";
    assert DigitsFrom(t, 16, 2) == 1;
    assert CountAttrAt(t, 8, 18) == Some(17);
    assert LastCountAttr(t, 18, 8) == Some((16, 17));
    assert LastCountAttr(t, 18, 9) == Some((16, 17));
    assert LastCountAttr(t, 18, 10) == Some((16, 17));
    assert LastCountAttr(t, 18, 18) == Some((16, 17));
    assert t[16..17] == [d];
  }

  /** The rules ahead of the `k`-th leave `e` alone, given rule by rule. */
  lemma EarlierUnmatched(e: string, k: nat)
    requires k <= 5
    requires k > 0 ==> Unmatched(CountedSpaces, e)
    requires k > 1 ==> Unmatched(SpaceElement, e)
    requires k > 2 ==> Unmatched(TabElement, e)
    requires k > 3 ==> Unmatched(ParagraphEnd, e)
    requires k > 4 ==> Unmatched(HeadingEnd, e)
    ensures forall i :: 0 <= i < k ==> Unmatched(MarkupRules[i], e)
  {
    forall i | 0 <= i < k
      ensures Unmatched(MarkupRules[i], e)
    {
      if i == 0 { assert MarkupRules[i] == CountedSpaces; }
      else if i == 1 { assert MarkupRules[i] == SpaceElement; }
      else if i == 2 { assert MarkupRules[i] == TabElement; }
      else if i == 3 { assert MarkupRules[i] == ParagraphEnd; }
      else { assert MarkupRules[i] == HeadingEnd; }
    }
  }

  /** An element replaced by the `k`-th markup rule and left alone by the
      earlier ones. */
  lemma MarkupElement(e: string, out: string, k: nat, y: string)
    requires k < |MarkupRules| && |e| > 0 && '<' !in e[1..] && '<' !in out
    requires forall i :: 0 <= i < k ==> Unmatched(MarkupRules[i], e)
    requires Hits(MarkupRules[k], e, out)
    ensures ReplaceAll(MarkupRules, e + y) == out + ReplaceAll(MarkupRules, y)
  {
    assert WhiteRun !in MarkupRules;
    ElementThroughAll(MarkupRules, e, out, k, y);
  }

  lemma StripParagraphStart(y: string)
    ensures ReplaceAll(MarkupRules, "<text:p>" + y) == "" + ReplaceAll(MarkupRules, y)
  {
    ParagraphStartRules();
    EarlierUnmatched("<text:p>", 5);
    MarkupElement("<text:p>", "", 5, y);
  }

  lemma StripClosing(e: string, rule: Rule, k: nat, y: string)
    requires (e == "</text:p>" && rule == ParagraphEnd && k == 3) || (e == "</text:h>" && rule == HeadingEnd && k == 4)
    ensures ReplaceAll(MarkupRules, e + y) == " " + ReplaceAll(MarkupRules, y)
  {
    ClosingRules(e, rule);
    EarlierUnmatched(e, k);
    MarkupElement(e, " ", k, y);
  }

  lemma StripSpaceMark(y: string)
    ensures ReplaceAll(MarkupRules, "<text:s/>" + y) == " " + ReplaceAll(MarkupRules, y)
  {
    SpaceMarkRules();
    EarlierUnmatched("<text:s/>", 1);
    MarkupElement("<text:s/>", " ", 1, y);
  }

  lemma StripTabMark(y: string)
    ensures ReplaceAll(MarkupRules, "<text:tab/>" + y) == "\t" + ReplaceAll(MarkupRules, y)
  {
    TabMarkRules();
    EarlierUnmatched("<text:tab/>", 2);
    MarkupElement("<text:tab/>", "\t", 2, y);
  }

  lemma StripSpaceRun(d: char, y: string)
    requires IsDigit(d)
    ensures ReplaceAll(MarkupRules, PieceXml(SpaceRun(d)) + y) == Repeat(' ', DigitValue(d)) + ReplaceAll(MarkupRules, y)
  {
    SpaceRunRules(d);
    MarkupElement(PieceXml(SpaceRun(d)), Repeat(' ', DigitValue(d)), 0, y);
  }

  /** Each piece becomes its reading, and the rest of the document is
      stripped as if the piece were not there. */
  lemma StripPiece(p: Piece, y: string)
    requires ValidPiece(p)
    ensures ReplaceAll(MarkupRules, PieceXml(p) + y) == PieceText(p) + ReplaceAll(MarkupRules, y)
  {
    match p
    case Chars(text) =>
      assert WhiteRun !in MarkupRules;
      PlainThroughAll(MarkupRules, text, y);
    case ParagraphStart => StripParagraphStart(y);
    case ParagraphClose => StripClosing("</text:p>", ParagraphEnd, 3, y);
    case HeadingClose => StripClosing("</text:h>", HeadingEnd, 4, y);
    case SpaceMark => StripSpaceMark(y);
    case TabMark => StripTabMark(y);
    case SpaceRun(d) => StripSpaceRun(d, y);
  }

  /** The reference reading of steps 1 to 5: a document built from pieces
      is stripped to the concatenation of the pieces' readings. */
  lemma {:induction false} StripPieces(ps: seq<Piece>)
    requires forall i :: 0 <= i < |ps| ==> ValidPiece(ps[i])
    ensures StripMarkup(Xml(ps)) == PlainText(ps)
    decreases |ps|
  {
    StripIsReplaceAll(Xml(ps));
    if |ps| == 0 {
      assert ReplaceAll(MarkupRules, []) == [] by {
        assert '<' !in [];
      }
    } else {
      var rest := ps[1..];
      StripPieces(rest);
      StripIsReplaceAll(Xml(rest));
      StripPiece(ps[0], Xml(rest));
    }
  }

  /** A one-paragraph document reads as its text and one space. */
  lemma ParagraphExample(w: string)
    requires '<' !in w
    ensures StripMarkup("<text:p>" + w + "</text:p>") == w + " "
  {
    var ps := [ParagraphStart, Chars(w), ParagraphClose];
    ParagraphPieces(w);
    StripPieces(ps);
  }

  /** The pieces of a one-paragraph document, written out and read. */
  lemma ParagraphPieces(w: string)
    requires '<' !in w
    ensures var ps := [ParagraphStart, Chars(w), ParagraphClose];
            && (forall i :: 0 <= i < |ps| ==> ValidPiece(ps[i]))
            && Xml(ps) == "<text:p>" + w + "</text:p>" && PlainText(ps) == w + " "
  {
    var ps := [ParagraphStart, Chars(w), ParagraphClose];
    assert ps[1..] == [Chars(w), ParagraphClose] && ps[1..][1..] == [ParagraphClose];
    assert Xml([ParagraphClose]) == "</text:p>" + [];
    assert PlainText([ParagraphClose]) == " " + [];
    assert Xml(ps) == "<text:p>" + (w + "</text:p>");
    assert PlainText(ps) == [] + (w + " ");
    AppendAssoc("<text:p>", w, "</text:p>");
  }

  lemma XmlCons(p: Piece, ps: seq<Piece>)
    ensures Xml([p] + ps) == PieceXml(p) + Xml(ps)
  {
    assert ([p] + ps)[1..] == ps;
  }

  lemma PlainTextCons(p: Piece, ps: seq<Piece>)
    requires ValidPiece(p) && forall i :: 0 <= i < |ps| ==> ValidPiece(ps[i])
    ensures PlainText([p] + ps) == PieceText(p) + PlainText(ps)
  {
    assert ([p] + ps)[1..] == ps;
  }

  /** A paragraph holding `a`, a counted space of `d`, `b`, a tab and
      `c`. */
  function MixedPieces(a: string, d: char, b: string, c: string): seq<Piece> {
    [ParagraphStart] + ([Chars(a)] + ([SpaceRun(d)] + ([Chars(b)] + ([TabMark] + ([Chars(c)] + [ParagraphClose])))))
  }

  lemma MixedXml(a: string, d: char, b: string, c: string)
    ensures Xml(MixedPieces(a, d, b, c))
            == "<text:p>" + a + "<text:s text:c=\"" + [d] + "\"/>" + b + "<text:tab/>" + c + "</text:p>"
  {
    var q6: seq<Piece> := [ParagraphClose];
    var q5 := [Chars(c)] + q6;
    var q4 := [TabMark] + q5;
    var q3 := [Chars(b)] + q4;
    var q2 := [SpaceRun(d)] + q3;
    var q1 := [Chars(a)] + q2;
    var sr := "<text:s text:c=\"" + [d] + "\"/>";
    var x6 := "</text:p>";
    XmlCons(ParagraphClose, []);
    assert [ParagraphClose] + [] == q6 && x6 + [] == x6;
    XmlCons(Chars(c), q6);
    XmlCons(TabMark, q5);
    XmlCons(Chars(b), q4);
    XmlCons(SpaceRun(d), q3);
    XmlCons(Chars(a), q2);
    XmlCons(ParagraphStart, q1);
    AppendAssoc("<text:p>", a, sr + (b + ("<text:tab/>" + (c + x6))));
    AppendAssoc("<text:p>" + a, sr, b + ("<text:tab/>" + (c + x6)));
    AppendAssoc("<text:p>" + a + sr, b, "<text:tab/>" + (c + x6));
    AppendAssoc("<text:p>" + a + sr + b, "<text:tab/>", c + x6);
    AppendAssoc("<text:p>" + a + sr + b + "<text:tab/>", c, x6);
    AppendAssoc("<text:p>" + a, "<text:s text:c=\"", [d]);
    AppendAssoc("<text:p>" + a, "<text:s text:c=\"" + [d], "\"/>");
  }

  lemma MixedText(a: string, d: char, b: string, c: string)
    requires '<' !in a && '<' !in b && '<' !in c && IsDigit(d)
    ensures forall i :: 0 <= i < |MixedPieces(a, d, b, c)| ==> ValidPiece(MixedPieces(a, d, b, c)[i])
    ensures PlainText(MixedPieces(a, d, b, c)) == a + Repeat(' ', DigitValue(d)) + b + "\t" + c + " "
  {
    var q6: seq<Piece> := [ParagraphClose];
    var q5 := [Chars(c)] + q6;
    var q4 := [TabMark] + q5;
    var q3 := [Chars(b)] + q4;
    var q2 := [SpaceRun(d)] + q3;
    var q1 := [Chars(a)] + q2;
    var n := Repeat(' ', DigitValue(d));
    PlainTextCons(ParagraphClose, []);
    assert [ParagraphClose] + [] == q6 && " " + [] == " ";
    PlainTextCons(Chars(c), q6);
    PlainTextCons(TabMark, q5);
    PlainTextCons(Chars(b), q4);
    PlainTextCons(SpaceRun(d), q3);
    PlainTextCons(Chars(a), q2);
    PlainTextCons(ParagraphStart, q1);
    AppendAssoc(a, n, b + ("\t" + (c + " ")));
    AppendAssoc(a + n, b, "\t" + (c + " "));
    AppendAssoc(a + n + b, "\t", c + " ");
    AppendAssoc(a + n + b + "\t", c, " ");
  }

  /** Counted spaces and tabs expand inside a paragraph. */
  lemma MixedExample(a: string, d: char, b: string, c: string)
    requires '<' !in a && '<' !in b && '<' !in c && IsDigit(d)
    ensures StripMarkup("<text:p>" + a + "<text:s text:c=\"" + [d] + "\"/>" + b + "<text:tab/>" + c + "</text:p>")
            == a + Repeat(' ', DigitValue(d)) + b + "\t" + c + " "
  {
    MixedText(a, d, b, c);
    StripPieces(MixedPieces(a, d, b, c));
    MixedXml(a, d, b, c);
  }

  // ---------------------------------------------------------------------
  // Step 7: white space

  /** Every white-space character is a plain space and none follows
      another. */
  predicate SingleSpaced(s: string) {
    forall i :: 0 <= i < |s| && IsSpace(s[i]) ==> s[i] == ' ' && (i + 1 == |s| || !IsSpace(s[i + 1]))
  }

  /** The shape of the final text: trimmed and single-spaced. */
  predicate Normalized(s: string) {
    IsTrimmed(s) && SingleSpaced(s)
  }

  lemma SingleSpacedSlice(s: string, lo: nat, hi: nat)
    requires SingleSpaced(s) && lo <= hi <= |s|
    ensures SingleSpaced(s[lo..hi])
  {
    var t := s[lo..hi];
    forall i | 0 <= i < |t| && IsSpace(t[i])
      ensures t[i] == ' ' && (i + 1 == |t| || !IsSpace(t[i + 1]))
    {
      assert t[i] == s[lo + i];
      if i + 1 < |t| {
        assert t[i + 1] == s[lo + i + 1];
      }
    }
  }

  /** Collapsing white-space runs: the result is single-spaced, and it is
      empty or starts with white space exactly when the input is or does. */
  lemma {:induction false} CollapseShape(s: string)
    ensures SingleSpaced(Replace(WhiteRun, s))
    ensures |Replace(WhiteRun, s)| == 0 <==> |s| == 0
    ensures |s| > 0 ==> (IsSpace(Replace(WhiteRun, s)[0]) <==> IsSpace(s[0]))
    decreases |s|
  {
    var r := Replace(WhiteRun, s);
    if |s| > 0 {
      match MatchAt(WhiteRun, s)
      case Some(m) =>
        var rest := s[m.length..];
        var rr := Replace(WhiteRun, rest);
        CollapseShape(rest);
        assert r == " " + rr;
        forall i | 0 <= i < |r| && IsSpace(r[i])
          ensures r[i] == ' ' && (i + 1 == |r| || !IsSpace(r[i + 1]))
        {
          if i > 0 {
            assert r[i] == rr[i - 1];
            if i + 1 < |r| {
              assert r[i + 1] == rr[i];
            }
          } else if i + 1 < |r| {
            assert r[1] == rr[0];
          }
        }
      case None =>
        var rr := Replace(WhiteRun, s[1..]);
        CollapseShape(s[1..]);
        assert r == [s[0]] + rr;
        forall i | 0 <= i < |r| && IsSpace(r[i])
          ensures r[i] == ' ' && (i + 1 == |r| || !IsSpace(r[i + 1]))
        {
          assert i > 0;
          assert r[i] == rr[i - 1];
          if i + 1 < |r| {
            assert r[i + 1] == rr[i];
          }
        }
    }
  }

  /** Collapsing white-space runs keeps every other character. */
  lemma {:induction false} CollapseKeepsText(s: string)
    ensures NonSpace(Replace(WhiteRun, s)) == NonSpace(s)
    decreases |s|
  {
    if |s| > 0 {
      var r := Replace(WhiteRun, s);
      match MatchAt(WhiteRun, s)
      case Some(m) =>
        var rest := s[m.length..];
        CollapseKeepsText(rest);
        assert s == s[..m.length] + rest;
        NonSpaceAppend(s[..m.length], rest);
        BlankHasNoNonSpace(s[..m.length]);
        NonSpaceAppend(" ", Replace(WhiteRun, rest));
        BlankHasNoNonSpace(" ");
      case None =>
        CollapseKeepsText(s[1..]);
    }
  }

  /** Trimming removes white space only. */
  lemma BlankSurround(front: string, r: string, back: string)
    requires IsBlank(front) && IsBlank(back)
    ensures NonSpace(front + r + back) == NonSpace(r)
  {
    BlankHasNoNonSpace(front);
    BlankHasNoNonSpace(back);
    NonSpaceAppend(front + r, back);
    NonSpaceAppend(front, r);
  }

  lemma SliceThree(s: string, a: nat, b: nat)
    requires a <= b <= |s|
    ensures s == s[..a] + s[a..b] + s[b..]
  {
  }

  lemma TrimKeepsText(s: string)
    ensures NonSpace(Trim(s)) == NonSpace(s)
  {
    var o := TrimOffset(s);
    var r := Trim(s);
    SliceThree(s, o, o + |r|);
    BlankSurround(s[..o], r, s[o + |r|..]);
  }

  lemma CollapsedIsNormalized(s: string)
    ensures Normalized(Trim(Replace(WhiteRun, s)))
  {
    var c := Replace(WhiteRun, s);
    CollapseShape(s);
    TrimOfSingleSpaced(c);
  }

  /** Trimming single-spaced text gives normalised text. */
  lemma TrimOfSingleSpaced(c: string)
    requires SingleSpaced(c)
    ensures Normalized(Trim(c))
  {
    var r := Trim(c);
    var o := TrimOffset(c);
    assert r == c[o..o + |r|];
    SingleSpacedSlice(c, o, o + |r|);
  }

  lemma CollapsedKeepsText(s: string)
    ensures NonSpace(Trim(Replace(WhiteRun, s))) == NonSpace(s)
  {
    CollapseKeepsText(s);
    TrimKeepsText(Replace(WhiteRun, s));
  }

  /** A word: non-empty text without white space. */
  predicate IsWord(w: string) {
    |w| > 0 && forall i :: 0 <= i < |w| ==> !IsSpace(w[i])
  }

  /** The end of the run of non-space characters starting at `i`. */
  function WordEnd(s: string, i: nat): (n: nat)
    requires i <= |s|
    ensures i <= n <= |s|
    ensures forall k :: i <= k < n ==> !IsSpace(s[k])
    ensures n == |s| || IsSpace(s[n])
    decreases |s| - i
  {
    if i < |s| && !IsSpace(s[i]) then WordEnd(s, i + 1) else i
  }

  /** The words of `s`, in order: its maximal runs of non-space
      characters. */
  function Words(s: string): (ws: seq<string>)
    ensures forall k :: 0 <= k < |ws| ==> IsWord(ws[k])
    decreases |s|
  {
    if |s| == 0 then []
    else if IsSpace(s[0]) then Words(s[1..])
    else
      var n := WordEnd(s, 0);
      [s[..n]] + Words(s[n..])
  }

  /** The single space a trailing white-space run of `s` collapses to. */
  function Trail(s: string): string {
    if |s| > 0 && IsSpace(s[|s| - 1]) then " " else ""
  }

  /** Characters that are not white space pass through the collapse. */
  lemma {:induction false} ReplaceWord(s: string, n: nat)
    requires n <= |s|
    requires forall k :: 0 <= k < n ==> !IsSpace(s[k])
    ensures Replace(WhiteRun, s) == s[..n] + Replace(WhiteRun, s[n..])
    decreases n
  {
    if n == 0 {
      assert s[..0] + s[0..] == s;
    } else {
      var t := s[1..];
      assert MatchAt(WhiteRun, s) == None;
      assert Replace(WhiteRun, s) == [s[0]] + Replace(WhiteRun, t);
      ReplaceWord(t, n - 1);
      assert t[n - 1..] == s[n..];
      assert [s[0]] + t[..n - 1] == s[..n];
      AppendAssoc([s[0]], t[..n - 1], Replace(WhiteRun, s[n..]));
    }
  }

  /** Leading white space holds no word. */
  lemma {:induction false} WordsSkipBlank(s: string, b: nat)
    requires b <= |s|
    requires forall k :: 0 <= k < b ==> IsSpace(s[k])
    ensures Words(s) == Words(s[b..])
    decreases b
  {
    if b > 0 {
      WordsSkipBlank(s[1..], b - 1);
      assert s[1..][b - 1..] == s[b..];
    }
  }

  /** A word at the front of the text passes through the collapse. */
  lemma WordStep(s: string)
    requires |s| > 0 && !IsSpace(s[0])
    ensures var n := WordEnd(s, 0);
            Replace(WhiteRun, s) == s[..n] + Replace(WhiteRun, s[n..])
            && Words(s) == [s[..n]] + Words(s[n..])
  {
    ReplaceWord(s, WordEnd(s, 0));
  }

  /** A white-space run at the front of the text becomes one space and
      holds no word; a word or the end follows it. */
  lemma BlankStep(v: string)
    requires |v| > 0 && IsSpace(v[0])
    ensures var b := BlankRun(v, 0);
            Replace(WhiteRun, v) == " " + Replace(WhiteRun, v[b..])
            && Words(v) == Words(v[b..])
            && (b == |v| || !IsSpace(v[b..][0]))
  {
    var b := BlankRun(v, 0);
    assert MatchAt(WhiteRun, v) == Some(Match(b, " "));
    WordsSkipBlank(v, b);
  }

  /** Text starting with a word has at least one word, and its joined
      words start with that word's first character. */
  lemma FirstWord(u: string)
    requires |u| > 0 && !IsSpace(u[0])
    ensures |Words(u)| > 0
    ensures var j := Join(Words(u), " "); |j| > 0 && j[0] == u[0]
  {
    var m := WordEnd(u, 0);
    assert Words(u) == [u[..m]] + Words(u[m..]);
  }

  lemma JoinCons(w: string, ws: seq<string>, sep: string)
    requires |ws| > 0
    ensures Join([w] + ws, sep) == w + sep + Join(ws, sep)
  {
    assert ([w] + ws)[1..] == ws;
  }

  /** Text that is empty or starts with a word collapses to its words
      joined by single spaces, plus one space for a trailing white-space
      run. */
  /** One more word in front of trimmed joined words. */
  lemma JoinMore(w: string, ws: seq<string>, t: string)
    requires |w| > 0 && !IsSpace(w[0]) && |ws| > 0
    requires var j := Join(ws, " "); |j| > 0 && IsTrimmed(j)
    ensures w + (" " + (Join(ws, " ") + t)) == Join([w] + ws, " ") + t
    ensures IsTrimmed(Join([w] + ws, " "))
  {
    var j := Join(ws, " ");
    JoinCons(w, ws, " ");
    AppendAssoc(w + " ", j, t);
    AppendAssoc(w, " ", j + t);
  }

  /** A non-empty suffix of a suffix ends where the text ends. */
  lemma TailOfTail(s: string, n: nat, b: nat)
    requires n + b < |s|
    ensures var u := s[n..][b..]; |u| > 0 && u[|u| - 1] == s[|s| - 1]
  {
  }

  lemma {:induction false} CollapseJoinsWords(s: string)
    requires |s| == 0 || !IsSpace(s[0])
    ensures Replace(WhiteRun, s) == Join(Words(s), " ") + Trail(s)
    ensures IsTrimmed(Join(Words(s), " "))
    decreases |s|, 1
  {
    if |s| > 0 {
      var n := WordEnd(s, 0);
      if n == |s| {
        WordStep(s);
        assert s[..n] == s && s[n..] == [];
        assert Words(s) == [s];
      } else {
        CollapseAfterWord(s);
      }
    }
  }

  /** The step of `CollapseJoinsWords` when white space follows the first
      word. */
  lemma {:induction false} CollapseAfterWord(s: string)
    requires |s| > 0 && !IsSpace(s[0]) && WordEnd(s, 0) < |s|
    ensures Replace(WhiteRun, s) == Join(Words(s), " ") + Trail(s)
    ensures IsTrimmed(Join(Words(s), " "))
    decreases |s|, 0
  {
    var n := WordEnd(s, 0);
    var w, v := s[..n], s[n..];
    WordStep(s);
    var u := v[BlankRun(v, 0)..];
    BlankStep(v);
    var rest := Replace(WhiteRun, u);
    assert Replace(WhiteRun, s) == w + (" " + rest);
    if |u| == 0 {
      assert Words(s) == [w];
      assert Trail(s) == " " by {
        assert s[|s| - 1] == v[|v| - 1];
      }
    } else {
      CollapseJoinsWords(u);
      FirstWord(u);
      TailOfTail(s, n, BlankRun(v, 0));
      assert Trail(u) == Trail(s);
      JoinMore(w, Words(u), Trail(s));
    }
  }

  /** The reference reading of step 7: the words of the text, joined by
      single spaces. */
  lemma CollapseIsJoinOfWords(s: string)
    ensures Trim(Replace(WhiteRun, s)) == Join(Words(s), " ")
  {
    var j := Join(Words(s), " ");
    if |s| == 0 || !IsSpace(s[0]) {
      CollapseJoinsWords(s);
      TrimAround([], j, Trail(s));
      assert [] + j + Trail(s) == j + Trail(s);
    } else {
      var u := s[BlankRun(s, 0)..];
      BlankStep(s);
      CollapseJoinsWords(u);
      AppendAssoc(" ", j, Trail(u));
      TrimAround(" ", j, Trail(u));
    }
  }

  /** Step 7: `text.replace(/\s+/g, ' ').trim()`. The result is the words
      of the input joined by single spaces: normalised, with the same
      non-space characters. */
  function CollapseWhitespace(s: string): (r: string)
    ensures r == Join(Words(s), " ")
    ensures Normalized(r)
    ensures NonSpace(r) == NonSpace(s)
  {
    CollapseIsJoinOfWords(s);
    CollapsedIsNormalized(s);
    CollapsedKeepsText(s);
    Trim(Replace(WhiteRun, s))
  }

  lemma {:induction false} CollapseFixesSingleSpaced(s: string)
    requires SingleSpaced(s)
    ensures Replace(WhiteRun, s) == s
    decreases |s|
  {
    if |s| > 0 {
      SingleSpacedSlice(s, 1, |s|);
      assert s[1..|s|] == s[1..];
      CollapseFixesSingleSpaced(s[1..]);
      if IsSpace(s[0]) {
        assert BlankRun(s, 0) == 1 by {
          assert |s| == 1 || !IsSpace(s[1]);
        }
        assert [s[0]] == " ";
      }
    }
  }

  /** Normalised text is left as it is. */
  lemma NormalizedIsFixed(s: string)
    requires Normalized(s)
    ensures CollapseWhitespace(s) == s
  {
    CollapseFixesSingleSpaced(s);
    TrimFixesTrimmed(s);
  }

  /** Normalising twice is normalising once. */
  lemma CollapseIdempotent(s: string)
    ensures CollapseWhitespace(CollapseWhitespace(s)) == CollapseWhitespace(s)
  {
    NormalizedIsFixed(CollapseWhitespace(s));
  }

  // ---------------------------------------------------------------------
  // The whole function

  /** What the uploaded file offers: its bytes read as UTF-8 text, whether
      they form a zip archive, and the archive's `content.xml` entry. */
  datatype Upload = Upload(raw: string, isZip: bool, contentXml: Option<string>)

  /** `parseOdtToText`. A file that is not a zip archive makes the loader
      reject (`None`). An archive without `content.xml` falls back to its
      raw text, collapsed and trimmed. Otherwise the markup is stripped,
      entities are decoded by `decode`, and white space is collapsed. The
      text is always normalised: the words of the decoded text (or of the
      raw text) joined by single spaces. */
  function ParseOdtToText(file: Upload, decode: string -> string): (r: Option<string>)
    ensures r.Some? <==> file.isZip
    ensures r.Some? && file.contentXml.None? ==> r.value == Join(Words(file.raw), " ")
    ensures r.Some? && file.contentXml.Some? ==>
              r.value == Join(Words(decode(StripMarkup(file.contentXml.value))), " ")
    ensures r.Some? ==> Normalized(r.value)
    ensures r.Some? && file.contentXml.None? ==> NonSpace(r.value) == NonSpace(file.raw)
    ensures r.Some? && file.contentXml.Some? ==>
              NonSpace(r.value) == NonSpace(decode(StripMarkup(file.contentXml.value)))
  {
    if !file.isZip then None
    else
      match file.contentXml
      case None => Some(CollapseWhitespace(file.raw))
      case Some(xml) => Some(CollapseWhitespace(decode(StripMarkup(xml))))
  }

  /** Markup-free content with nothing to decode reads exactly as the
      fallback would read the same text. */
  lemma PlainContentMatchesFallback(xml: string, raw: string)
    requires '<' !in xml
    ensures ParseOdtToText(Upload(raw, true, Some(xml)), s => s)
            == ParseOdtToText(Upload(xml, true, None), s => s)
  {
  }

  /** A counted space element becomes that many spaces. */
  lemma CountedSpacesExample()
    ensures Replace(CountedSpaces, "<text:s text:c=\"3\"/>") == "   "
  {
    var t := "<text:s text:c=\"3\"/>";
    var three := Repeat(' ', DigitValue('3'));
    assert t == PieceXml(SpaceRun('3'));
    SpaceRunMatch('3', []);
    assert After(t, []) == t + [];
    HitStep(CountedSpaces, t, three, []);
    assert t + [] == t && three + [] == three;
    assert Replace(CountedSpaces, []) == [];
    assert three == "   " by {
      assert three[0] == ' ' && three[1] == ' ' && three[2] == ' ';
    }
  }

}

=== FILE: persistence.dfy ===
/** What the import hook writes, over an in-memory store in place of the
    database. A duty record is created only when no record shares its key
    (date, depot, number, period, cycle assignments). Once the blocks are
    done, the depot's station is flagged and given this booklet's series.
    A station list creates only the stations whose code is not yet known. */
module Persistence {

  import opened Wrappers
  import opened JsString
  import Normalize
  import opened Extraction

  /** A station (`gares`). */
  datatype Gare = Gare(id: nat, code: string, garefr: string, garenl: string, depot: bool, series: seq<string>)

  /** A stored duty (`prestations`). */
  datatype Record = Record(
    name: string,
    depot: nat,
    date: string,
    heureDebut: string,
    heureFin: string,
    amplitude: string,
    periode: string,
    roulement: seq<Assignment>,
    tempsConduite: int,
    rawData: string,
    amplitudeMin: nat,
    tempsReserve: int,
    tempsActif: int,
    tempsHLP: int)

  /** The fields the existence query compares. */
  datatype Key = Key(date: string, depot: nat, name: string, periode: string, roulement: seq<Assignment>)

  function KeyOf(r: Record): Key {
    Key(r.date, r.depot, r.name, r.periode, r.roulement)
  }

  /** The two collections, in the order `find` returns them, and the next
      fresh station id. */
  datatype Store = Store(gares: seq<Gare>, records: seq<Record>, nextId: nat)

  predicate HasKey(records: seq<Record>, k: Key) {
    exists i :: 0 <= i < |records| && KeyOf(records[i]) == k
  }

  /** `find` on `gares` by code, keeping `docs[0]`: the first station with
      that code. */
  function FindGare(gares: seq<Gare>, code: string): (r: Option<nat>)
    ensures r.Some? ==> r.value < |gares| && gares[r.value].code == code
    ensures r.Some? ==> forall j :: 0 <= j < r.value ==> gares[j].code != code
    ensures r.None? ==> forall j :: 0 <= j < |gares| ==> gares[j].code != code
    decreases |gares|
  {
    if |gares| == 0 then None
    else if gares[0].code == code then Some(0)
    else
      match FindGare(gares[1..], code)
      case None => None
      case Some(i) => Some(i + 1)
  }

  /** Two station lists with the same codes in the same order answer every
      code lookup alike. */
  lemma {:induction false} FindGareByCodes(a: seq<Gare>, b: seq<Gare>, code: string)
    requires |a| == |b| && forall i :: 0 <= i < |a| ==> a[i].code == b[i].code
    ensures FindGare(a, code) == FindGare(b, code)
    decreases |a|
  {
    if |a| > 0 && a[0].code != code {
      FindGareByCodes(a[1..], b[1..], code);
    }
  }

  /** The record the hook builds for a duty. */
  function MakeRecord(d: Duty, depot: nat, date: string, raw: string): (r: Record)
    ensures KeyOf(r) == Key(date, depot, d.number, d.period, d.roulement)
    ensures r.tempsActif == d.totals.active && r.tempsReserve == d.totals.reserve
    ensures r.tempsHLP == d.totals.hlp && r.tempsConduite == d.totals.drive
    ensures r.heureDebut == d.start && r.heureFin == d.end
    ensures r.amplitude == d.amplitude && r.amplitudeMin == d.amplitudeMinutes && r.rawData == raw
  {
    Record(
      name := d.number,
      depot := depot,
      date := date,
      heureDebut := d.start,
      heureFin := d.end,
      amplitude := d.amplitude,
      periode := d.period,
      roulement := d.roulement,
      tempsConduite := d.totals.drive,
      rawData := raw,
      amplitudeMin := d.amplitudeMinutes,
      tempsReserve := d.totals.reserve,
      tempsActif := d.totals.active,
      tempsHLP := d.totals.hlp)
  }

  /** The depot station a code resolves to, if the code is set and some
      station has it. */
  function ResolveDepot(gares: seq<Gare>, code: Option<string>): (r: Option<nat>)
    ensures r.Some? ==> r.value < |gares|
  {
    if Truthy(code) then FindGare(gares, code.value) else None
  }

  /** Persisting one block: nothing without a depot station; otherwise the
      record is appended unless one with its key exists. The validity test
      of the block plays no part. */
  function SaveDuty(s: Store, d: Duty, code: Option<string>, date: string, raw: string): (r: Store)
    ensures r.gares == s.gares && r.nextId == s.nextId
    ensures |s.records| <= |r.records| <= |s.records| + 1 && r.records[..|s.records|] == s.records
    ensures ResolveDepot(s.gares, code).None? ==> r == s
    ensures ResolveDepot(s.gares, code).Some? ==>
              var k := Key(date, s.gares[ResolveDepot(s.gares, code).value].id, d.number, d.period, d.roulement);
              HasKey(r.records, k) && (|r.records| == |s.records| + 1 <==> !HasKey(s.records, k))
    ensures |r.records| == |s.records| + 1 ==>
              ResolveDepot(s.gares, code).Some?
              && r.records[|s.records|] == MakeRecord(d, s.gares[ResolveDepot(s.gares, code).value].id, date, raw)
  {
    match ResolveDepot(s.gares, code)
    case None => s
    case Some(g) =>
      var rec := MakeRecord(d, s.gares[g].id, date, raw);
      if HasKey(s.records, KeyOf(rec)) then s
      else
        var records := s.records + [rec];
        assert KeyOf(records[|s.records|]) == KeyOf(rec);
        assert records[..|s.records|] == s.records;
        s.(records := records)
  }

  /** Persisting a block a second time changes nothing. */
  lemma SaveDutyIdempotent(s: Store, d: Duty, code: Option<string>, date: string, raw: string)
    ensures SaveDuty(SaveDuty(s, d, code, date, raw), d, code, date, raw) == SaveDuty(s, d, code, date, raw)
  {
  }

  /** All blocks of a booklet, in order. */
  function SaveAll(s: Store, duties: seq<Duty>, blocks: seq<string>, code: Option<string>, date: string): (r: Store)
    requires |duties| == |blocks|
    ensures r.gares == s.gares && r.nextId == s.nextId
    ensures |s.records| <= |r.records| && r.records[..|s.records|] == s.records
    decreases |duties|
  {
    if |duties| == 0 then s
    else
      var n := |duties| - 1;
      var prev := SaveAll(s, duties[..n], blocks[..n], code, date);
      var r := SaveDuty(prev, duties[n], code, date, blocks[n]);
      assert r.records[..|s.records|] == prev.records[..|prev.records|][..|s.records|];
      r
  }

  /** The key a duty is stored under once the depot is station `g`. */
  function DutyKey(d: Duty, gareId: nat, date: string): Key {
    Key(date, gareId, d.number, d.period, d.roulement)
  }

  lemma HasKeyPrefix(a: seq<Record>, b: seq<Record>, k: Key)
    requires |a| <= |b| && b[..|a|] == a && HasKey(a, k)
    ensures HasKey(b, k)
  {
    var i :| 0 <= i < |a| && KeyOf(a[i]) == k;
    assert b[i] == a[i];
  }

  /** After the loop every block's key is stored, when the depot resolves. */
  lemma {:induction false} SaveAllStoresEveryKey(s: Store, duties: seq<Duty>, blocks: seq<string>, code: Option<string>, date: string)
    requires |duties| == |blocks|
    requires ResolveDepot(s.gares, code).Some?
    ensures var r := SaveAll(s, duties, blocks, code, date);
            var g := s.gares[ResolveDepot(s.gares, code).value].id;
            forall i :: 0 <= i < |duties| ==> HasKey(r.records, DutyKey(duties[i], g, date))
    decreases |duties|
  {
    if |duties| > 0 {
      var n := |duties| - 1;
      var g := s.gares[ResolveDepot(s.gares, code).value].id;
      var prev := SaveAll(s, duties[..n], blocks[..n], code, date);
      var r := SaveAll(s, duties, blocks, code, date);
      SaveAllStoresEveryKey(s, duties[..n], blocks[..n], code, date);
      forall i | 0 <= i < |duties|
        ensures HasKey(r.records, DutyKey(duties[i], g, date))
      {
        if i < n {
          assert duties[..n][i] == duties[i];
          HasKeyPrefix(prev.records, r.records, DutyKey(duties[i], g, date));
        }
      }
    }
  }

  /** A store that already holds every block's key is left alone. */
  lemma {:induction false} SaveAllKnownKeys(s: Store, duties: seq<Duty>, blocks: seq<string>, code: Option<string>, date: string)
    requires |duties| == |blocks|
    requires ResolveDepot(s.gares, code).Some?
    requires forall i :: 0 <= i < |duties| ==>
               HasKey(s.records, DutyKey(duties[i], s.gares[ResolveDepot(s.gares, code).value].id, date))
    ensures SaveAll(s, duties, blocks, code, date) == s
    decreases |duties|
  {
    if |duties| > 0 {
      var n := |duties| - 1;
      SaveAllKnownKeys(s, duties[..n], blocks[..n], code, date);
    }
  }

  // ---------------------------------------------------------------------
  // The depot station

  /** `update` of the depot station: flagged as a depot, its series list
      replaced by this booklet's list. */
  function UpdateDepot(s: Store, code: string, series: seq<string>): (r: Store)
    ensures r.records == s.records && r.nextId == s.nextId && |r.gares| == |s.gares|
    ensures forall i :: 0 <= i < |s.gares| ==> r.gares[i].code == s.gares[i].code && r.gares[i].id == s.gares[i].id
    ensures match FindGare(s.gares, code)
            case None => r == s
            case Some(g) =>
              r.gares[g].depot && r.gares[g].series == series
              && r.gares[g] == s.gares[g].(depot := true, series := series)
              && forall i :: 0 <= i < |s.gares| && i != g ==> r.gares[i] == s.gares[i]
  {
    match FindGare(s.gares, code)
    case None => s
    case Some(g) => s.(gares := s.gares[g := s.gares[g].(depot := true, series := series)])
  }

  /** Without a resolvable depot no block is stored. */
  lemma {:induction false} SaveAllNoDepot(s: Store, duties: seq<Duty>, blocks: seq<string>, code: Option<string>, date: string)
    requires |duties| == |blocks|
    requires ResolveDepot(s.gares, code).None?
    ensures SaveAll(s, duties, blocks, code, date) == s
    decreases |duties|
  {
    if |duties| > 0 {
      var n := |duties| - 1;
      SaveAllNoDepot(s, duties[..n], blocks[..n], code, date);
    }
  }

  /** Saving every block, then updating the depot station with the
      booklet's series when the booklet names a depot. */
  function Persist(s: Store, duties: seq<Duty>, blocks: seq<string>, code: Option<string>, date: string,
                   series: seq<string>): (r: Store)
    requires |duties| == |blocks|
    ensures |s.records| <= |r.records| && r.records[..|s.records|] == s.records
    ensures |r.gares| == |s.gares| && r.nextId == s.nextId
    ensures forall i :: 0 <= i < |s.gares| ==> r.gares[i].code == s.gares[i].code && r.gares[i].id == s.gares[i].id
  {
    var s1 := SaveAll(s, duties, blocks, code, date);
    if Truthy(code) then UpdateDepot(s1, code.value, series) else s1
  }

  /** Persisting the same blocks twice leaves the store as the first time. */
  lemma PersistIdempotent(s: Store, duties: seq<Duty>, blocks: seq<string>, code: Option<string>, date: string,
                          series: seq<string>)
    requires |duties| == |blocks|
    ensures var r := Persist(s, duties, blocks, code, date, series);
            Persist(r, duties, blocks, code, date, series) == r
  {
    var s1 := SaveAll(s, duties, blocks, code, date);
    var r := Persist(s, duties, blocks, code, date, series);
    FindGareByCodes(r.gares, s.gares, code.GetOr(""));
    if ResolveDepot(s.gares, code).Some? {
      var g := ResolveDepot(s.gares, code).value;
      SaveAllStoresEveryKey(s, duties, blocks, code, date);
      assert ResolveDepot(r.gares, code) == Some(g);
      SaveAllKnownKeys(r, duties, blocks, code, date);
      assert r.gares == s1.gares[g := s1.gares[g].(depot := true, series := series)];
    } else {
      assert ResolveDepot(r.gares, code).None?;
      SaveAllNoDepot(r, duties, blocks, code, date);
    }
  }

  /** With a depot code some station carries, persisting flags that
      station and replaces its series with the given list; every other
      station is left as it was. */
  lemma PersistUpdatesDepot(s: Store, duties: seq<Duty>, blocks: seq<string>, code: Option<string>, date: string,
                            series: seq<string>)
    requires |duties| == |blocks|
    requires Truthy(code) && FindGare(s.gares, code.value).Some?
    ensures var g := FindGare(s.gares, code.value).value;
            var r := Persist(s, duties, blocks, code, date, series);
            r.gares[g].depot && r.gares[g].series == series
            && forall i :: 0 <= i < |s.gares| && i != g ==> r.gares[i] == s.gares[i]
  {
  }

  /** `afterChange` for a booklet, once parsed: extract, save every block,
      then update the depot station. */
  function ImportPrestations(s: Store, p: Patterns, data: string): (r: Store)
    ensures |s.records| <= |r.records| && r.records[..|s.records|] == s.records
    ensures |r.gares| == |s.gares| && r.nextId == s.nextId
  {
    var doc := ExtractDocument(p, data);
    Persist(s, doc.duties, doc.blocks, doc.depotCode, doc.date, doc.series)
  }

  /** A booklet with at least one block and a depot code some station
      carries leaves that station flagged, with exactly this booklet's
      series in place of whatever it had. No other station changes. */
  lemma DepotOverwritten(s: Store, p: Patterns, data: string)
    requires var doc := ExtractDocument(p, data);
             Truthy(doc.depotCode) && FindGare(s.gares, doc.depotCode.value).Some?
    ensures var doc := ExtractDocument(p, data);
            var g := FindGare(s.gares, doc.depotCode.value).value;
            var r := ImportPrestations(s, p, data);
            |doc.blocks| > 0 && r.gares[g].depot && r.gares[g].series == doc.series
            && forall i :: 0 <= i < |s.gares| && i != g ==> r.gares[i] == s.gares[i]
  {
    var doc := ExtractDocument(p, data);
    PersistUpdatesDepot(s, doc.duties, doc.blocks, doc.depotCode, doc.date, doc.series);
  }

  /** A booklet without blocks writes nothing: no record, and no depot
      update, because the depot code is only read inside the loop. */
  lemma NoBlockNoWrite(s: Store, p: Patterns, data: string)
    requires |ExtractDocument(p, data).blocks| == 0
    ensures ImportPrestations(s, p, data) == s
  {
  }

  /** Importing the same booklet twice leaves the store as the first import
      left it: every key is already stored, and the depot update writes
      the same values again. */
  lemma ImportPrestationsIdempotent(s: Store, p: Patterns, data: string)
    ensures ImportPrestations(ImportPrestations(s, p, data), p, data) == ImportPrestations(s, p, data)
  {
    var doc := ExtractDocument(p, data);
    PersistIdempotent(s, doc.duties, doc.blocks, doc.depotCode, doc.date, doc.series);
  }

  // ---------------------------------------------------------------------
  // Station list import

  /** One entry of the station list file. */
  datatype GareInput = GareInput(gareFR: string, gareNL: string, code: string)

  /** The page size of the `find` that collects known codes. */
  const FindLimit := 10000

  /** The codes of the stations `find` returns, at most `FindLimit` of
      them. */
  function KnownCodes(gares: seq<Gare>): set<string> {
    var n := if |gares| < FindLimit then |gares| else FindLimit;
    set i | 0 <= i < n :: gares[i].code
  }

  function AddGare(s: Store, g: GareInput): (r: Store)
    ensures r.records == s.records && |r.gares| == |s.gares| + 1 && r.gares[..|s.gares|] == s.gares
    ensures r.gares[|s.gares|] == Gare(s.nextId, g.code, g.gareFR, g.gareNL, false, [])
    ensures r.nextId == s.nextId + 1
  {
    var gares := s.gares + [Gare(s.nextId, g.code, g.gareFR, g.gareNL, false, [])];
    assert gares[..|s.gares|] == s.gares;
    s.(gares := gares, nextId := s.nextId + 1)
  }

  /** What the `gares` collection accepts: `garefr`, `garenl` and `code`
      are required fields, so none of them may be empty. A field missing
      from the list file reads as the empty string. */
  predicate Creatable(g: GareInput) {
    g.gareFR != [] && g.gareNL != [] && g.code != []
  }

  /** The loop over the list. A known code is skipped. An unknown code
      creates a station and becomes known. The first unknown entry that the
      collection rejects throws out of the loop, and the rest of the list
      is not imported. */
  function LieuxFrom(s: Store, known: set<string>, inputs: seq<GareInput>): (r: Store)
    ensures r.records == s.records
    ensures |s.gares| <= |r.gares| && r.gares[..|s.gares|] == s.gares
    decreases |inputs|
  {
    if |inputs| == 0 then s
    else if inputs[0].code in known then LieuxFrom(s, known, inputs[1..])
    else if !Creatable(inputs[0]) then s
    else
      var s1 := AddGare(s, inputs[0]);
      var r := LieuxFrom(s1, known + {inputs[0].code}, inputs[1..]);
      assert r.gares[..|s.gares|] == r.gares[..|s1.gares|][..|s.gares|];
      r
  }

  /** How many entries the loop gets through before a rejected `create`
      stops it: the whole list when none is rejected. */
  function LieuxAccepted(known: set<string>, inputs: seq<GareInput>): (n: nat)
    ensures n <= |inputs|
    decreases |inputs|
  {
    if |inputs| == 0 then 0
    else if inputs[0].code in known then 1 + LieuxAccepted(known, inputs[1..])
    else if !Creatable(inputs[0]) then 0
    else 1 + LieuxAccepted(known + {inputs[0].code}, inputs[1..])
  }

  /** The codes of the station list. */
  function InputCodes(inputs: seq<GareInput>): set<string> {
    set i | 0 <= i < |inputs| :: inputs[i].code
  }

  /** Entry `i` brings a code that is neither known nor listed before it,
      so the loop calls `create` for it. */
  predicate NewAt(known: set<string>, inputs: seq<GareInput>, i: nat)
    requires i < |inputs|
  {
    inputs[i].code !in known && inputs[i].code !in InputCodes(inputs[..i])
  }

  /** The codes of the stations appended after the first `n`. */
  function NewCodes(gares: seq<Gare>, n: nat): seq<string>
    requires n <= |gares|
  {
    seq(|gares| - n, i requires 0 <= i < |gares| - n => gares[n + i].code)
  }

  lemma InputCodesCons(inputs: seq<GareInput>)
    requires |inputs| > 0
    ensures InputCodes(inputs) == {inputs[0].code} + InputCodes(inputs[1..])
  {
    var rest := inputs[1..];
    forall c | c in InputCodes(inputs)
      ensures c in {inputs[0].code} + InputCodes(rest)
    {
      var i :| 0 <= i < |inputs| && inputs[i].code == c;
      if i > 0 {
        assert rest[i - 1] == inputs[i];
      }
    }
    forall c | c in InputCodes(rest)
      ensures c in InputCodes(inputs)
    {
      var i :| 0 <= i < |rest| && rest[i].code == c;
      assert inputs[i + 1] == rest[i];
    }
  }

  /** The codes of a non-empty prefix: the first code and those of the
      matching prefix of the tail. */
  lemma PrefixCodesCons(inputs: seq<GareInput>, i: nat)
    requires 0 < i <= |inputs|
    ensures InputCodes(inputs[..i]) == {inputs[0].code} + InputCodes(inputs[1..][..i - 1])
  {
    InputCodesCons(inputs[..i]);
    assert inputs[..i][1..] == inputs[1..][..i - 1];
  }

  lemma NewCodesCons(gares: seq<Gare>, n: nat)
    requires n < |gares|
    ensures NewCodes(gares, n) == [gares[n].code] + NewCodes(gares, n + 1)
  {
  }

  /** Where the loop stops: every entry before that point which brings a
      new code is accepted by the collection, and the entry it stops at
      brings a new code that the collection rejects. */
  lemma {:induction false} LieuxStop(known: set<string>, inputs: seq<GareInput>)
    ensures var n := LieuxAccepted(known, inputs);
            && (forall i :: 0 <= i < n && NewAt(known, inputs, i) ==> Creatable(inputs[i]))
            && (n < |inputs| ==> NewAt(known, inputs, n) && !Creatable(inputs[n]))
    decreases |inputs|
  {
    if |inputs| > 0 {
      var n := LieuxAccepted(known, inputs);
      var rest := inputs[1..];
      var c0 := inputs[0].code;
      var known1 := if c0 in known then known else known + {c0};
      if c0 in known || Creatable(inputs[0]) {
        LieuxStop(known1, rest);
        assert n == 1 + LieuxAccepted(known1, rest);
        forall i | 0 < i <= n && i < |inputs|
          ensures NewAt(known, inputs, i) <==> NewAt(known1, rest, i - 1)
        {
          PrefixCodesCons(inputs, i);
          assert rest[i - 1] == inputs[i];
        }
        forall i | 0 <= i < n && NewAt(known, inputs, i)
          ensures Creatable(inputs[i])
        {
          if i > 0 {
            assert rest[i - 1] == inputs[i];
          }
        }
        if n < |inputs| {
          assert rest[n - 1] == inputs[n];
        }
      } else {
        assert inputs[..0] == [];
      }
    }
  }

  /** The stations the loop creates: one per code listed before the loop
      stops that was not known, no code twice, none already known. */
  lemma {:induction false} LieuxCreatesUnknownOnce(s: Store, known: set<string>, inputs: seq<GareInput>)
    ensures var r := LieuxFrom(s, known, inputs);
            var created := NewCodes(r.gares, |s.gares|);
            var accepted := inputs[..LieuxAccepted(known, inputs)];
            NoDuplicates(created)
            && (forall c :: c in created <==> c in InputCodes(accepted) && c !in known)
    decreases |inputs|
  {
    var r := LieuxFrom(s, known, inputs);
    var n := LieuxAccepted(known, inputs);
    if |inputs| == 0 || (inputs[0].code !in known && !Creatable(inputs[0])) {
      assert NewCodes(r.gares, |s.gares|) == [];
      assert inputs[..n] == [];
    } else {
      var rest := inputs[1..];
      PrefixCodesCons(inputs, n);
      if inputs[0].code in known {
        LieuxCreatesUnknownOnce(s, known, rest);
      } else {
        var s1 := AddGare(s, inputs[0]);
        LieuxCreatesUnknownOnce(s1, known + {inputs[0].code}, rest);
        assert r == LieuxFrom(s1, known + {inputs[0].code}, rest);
        assert r.gares[|s.gares|] == s1.gares[|s.gares|];
        NewCodesCons(r.gares, |s.gares|);
      }
    }
  }

  /** The first entry of the list carrying code `c`, if any. */
  function FirstEntry(inputs: seq<GareInput>, c: string): (r: Option<GareInput>)
    ensures r.Some? <==> c in InputCodes(inputs)
    ensures r.Some? ==> r.value in inputs && r.value.code == c
    decreases |inputs|
  {
    if |inputs| == 0 then None
    else
      InputCodesCons(inputs);
      if inputs[0].code == c then Some(inputs[0]) else FirstEntry(inputs[1..], c)
  }

  /** Every station the loop creates takes its French and Dutch names from
      the first entry of the list with its code, which the collection
      accepts. It gets the next fresh id in list order, and starts as a
      non-depot station with no series. */
  lemma {:induction false} LieuxNamesFromFirstEntry(s: Store, known: set<string>, inputs: seq<GareInput>)
    ensures var r := LieuxFrom(s, known, inputs);
            r.nextId == s.nextId + (|r.gares| - |s.gares|)
            && forall j :: |s.gares| <= j < |r.gares| ==>
                 r.gares[j].code !in known
                 && FirstEntry(inputs, r.gares[j].code) == Some(GareInput(r.gares[j].garefr, r.gares[j].garenl, r.gares[j].code))
                 && Creatable(GareInput(r.gares[j].garefr, r.gares[j].garenl, r.gares[j].code))
                 && r.gares[j].id == s.nextId + (j - |s.gares|)
                 && !r.gares[j].depot && r.gares[j].series == []
    decreases |inputs|
  {
    var r := LieuxFrom(s, known, inputs);
    if |inputs| == 0 {
    } else {
      var rest := inputs[1..];
      var c0 := inputs[0].code;
      if c0 in known {
        LieuxNamesFromFirstEntry(s, known, rest);
        forall j | |s.gares| <= j < |r.gares|
          ensures FirstEntry(inputs, r.gares[j].code) == FirstEntry(rest, r.gares[j].code)
        {
          assert r.gares[j].code != c0;
        }
      } else if Creatable(inputs[0]) {
        var s1 := AddGare(s, inputs[0]);
        LieuxNamesFromFirstEntry(s1, known + {c0}, rest);
        assert r == LieuxFrom(s1, known + {c0}, rest);
        assert r.gares[|s.gares|] == s1.gares[|s.gares|];
        forall j | |s1.gares| <= j < |r.gares|
          ensures FirstEntry(inputs, r.gares[j].code) == FirstEntry(rest, r.gares[j].code)
        {
          assert r.gares[j].code != c0;
        }
      }
    }
  }

  /** `afterChange` for a station list. */
  function ImportLieux(s: Store, inputs: seq<GareInput>): (r: Store)
    ensures r.records == s.records
    ensures |s.gares| <= |r.gares| && r.gares[..|s.gares|] == s.gares
    ensures NoDuplicates(NewCodes(r.gares, |s.gares|))
    ensures var accepted := inputs[..LieuxAccepted(KnownCodes(s.gares), inputs)];
            forall c :: c in NewCodes(r.gares, |s.gares|) <==> c in InputCodes(accepted) && c !in KnownCodes(s.gares)
    ensures forall j :: |s.gares| <= j < |r.gares| ==>
              var g := GareInput(r.gares[j].garefr, r.gares[j].garenl, r.gares[j].code);
              FirstEntry(inputs, g.code) == Some(g) && Creatable(g)
  {
    LieuxCreatesUnknownOnce(s, KnownCodes(s.gares), inputs);
    LieuxNamesFromFirstEntry(s, KnownCodes(s.gares), inputs);
    LieuxFrom(s, KnownCodes(s.gares), inputs)
  }

  /** A list whose first `n` codes are all known, and which stops at entry
      `n` if there is one, creates nothing. */
  lemma {:induction false} LieuxSettled(s: Store, known: set<string>, inputs: seq<GareInput>, n: nat)
    requires n <= |inputs|
    requires forall i :: 0 <= i < n ==> inputs[i].code in known
    requires n < |inputs| ==> inputs[n].code !in known && !Creatable(inputs[n])
    ensures LieuxFrom(s, known, inputs) == s
    decreases n
  {
    if n > 0 {
      assert inputs[0].code in known;
      var rest := inputs[1..];
      forall i | 0 <= i < n - 1
        ensures rest[i].code in known
      {
        assert rest[i] == inputs[i + 1];
      }
      if n - 1 < |rest| {
        assert rest[n - 1] == inputs[n];
      }
      LieuxSettled(s, known, rest, n - 1);
    }
  }

  /** While the station count stays within one page of `find`, importing
      the same list again creates nothing: the accepted codes are now
      known, and the entry that stopped the loop stops it again. */
  lemma ImportLieuxIdempotent(s: Store, inputs: seq<GareInput>)
    requires |ImportLieux(s, inputs).gares| <= FindLimit
    ensures ImportLieux(ImportLieux(s, inputs), inputs) == ImportLieux(s, inputs)
  {
    var r := ImportLieux(s, inputs);
    var known := KnownCodes(s.gares);
    var n := LieuxAccepted(known, inputs);
    LieuxCreatesUnknownOnce(s, known, inputs);
    LieuxStop(known, inputs);
    var created := NewCodes(r.gares, |s.gares|);
    forall i | 0 <= i < n
      ensures inputs[i].code in KnownCodes(r.gares)
    {
      var c := inputs[i].code;
      if c in known {
        var i0 :| 0 <= i0 < |s.gares| && i0 < FindLimit && s.gares[i0].code == c;
        assert r.gares[i0] == s.gares[i0];
      } else {
        assert inputs[..n][i] == inputs[i];
        assert c in created;
        CreatedKnown(r.gares, |s.gares|, c);
      }
    }
    if n < |inputs| {
      var c := inputs[n].code;
      if c in KnownCodes(r.gares) {
        KnownSplit(r.gares, |s.gares|, c);
        assert false;
      }
    }
    LieuxSettled(r, KnownCodes(r.gares), inputs, n);
  }

  /** A code appended to a list `find` still sees whole is known to it. */
  lemma CreatedKnown(gares: seq<Gare>, n: nat, c: string)
    requires n <= |gares| <= FindLimit && c in NewCodes(gares, n)
    ensures c in KnownCodes(gares)
  {
    var created := NewCodes(gares, n);
    var j :| 0 <= j < |created| && created[j] == c;
    assert gares[n + j].code == c;
  }

  /** A code `find` sees in a list within one page is either in its first
      `n` stations or among those appended after them. */
  lemma KnownSplit(gares: seq<Gare>, n: nat, c: string)
    requires n <= |gares| <= FindLimit && c in KnownCodes(gares)
    ensures c in KnownCodes(gares[..n]) || c in NewCodes(gares, n)
  {
    var i :| 0 <= i < |gares| && gares[i].code == c;
    if i < n {
      assert gares[..n][i] == gares[i];
    } else {
      assert NewCodes(gares, n)[i - n] == c;
    }
  }

  // ---------------------------------------------------------------------
  // The hook

  datatype ImportKind = PrestationsFile | LieuxFile

  datatype Etat = Pending | Imported | Failed

  /** An `import` document: its kind, its state, the uploaded file, and the
      station list the file holds when it is one. */
  datatype ImportDoc = ImportDoc(kind: ImportKind, etat: Etat, file: Normalize.Upload, lieux: seq<GareInput>)

  /** `afterChange`: a document already imported is skipped. A booklet that
      cannot be read writes nothing. */
  function AfterChange(doc: ImportDoc, s: Store, p: Patterns, decode: string -> string): (r: Store)
    ensures doc.etat == Imported ==> r == s
    ensures |s.records| <= |r.records| && r.records[..|s.records|] == s.records
  {
    if doc.etat == Imported then s
    else
      match doc.kind
      case PrestationsFile =>
        (match Normalize.ParseOdtToText(doc.file, decode)
         case None => s
         case Some(data) => ImportPrestations(s, p, data))
      case LieuxFile => ImportLieux(s, doc.lieux)
  }

  /** A hook that fires twice on a booklet stores what one run stores. */
  lemma AfterChangeTwice(doc: ImportDoc, s: Store, p: Patterns, decode: string -> string)
    requires doc.kind == PrestationsFile
    ensures AfterChange(doc, AfterChange(doc, s, p, decode), p, decode) == AfterChange(doc, s, p, decode)
  {
    if doc.etat != Imported {
      match Normalize.ParseOdtToText(doc.file, decode)
      case None =>
      case Some(data) => ImportPrestationsIdempotent(s, p, data);
    }
  }
}

=== FILE: prestations.dfy ===
/** `src/collections/Import/prestations.ts`: cutting the flattened booklet
    into duty blocks, cutting a duty's task list into task segments, and the
    minutes between two clock readings. */
module Prestations {

  import opened JsString

  // =====================================================================
  // Duty blocks

  /** The literal line of one hundred underscores that separates duties. */
  const Separator: string := "____________________________________________________________________________________________________"

  /** `e => e.trim()` over every piece. */
  function TrimAll(pieces: seq<string>): (r: seq<string>)
    ensures |r| == |pieces|
    ensures forall k :: 0 <= k < |r| ==> r[k] == Trim(pieces[k])
  {
    seq(|pieces|, k requires 0 <= k < |pieces| => Trim(pieces[k]))
  }

  /** `e => e !== ''`: the non-empty strings, in order. */
  function DropEmpty(xs: seq<string>): (r: seq<string>)
    ensures forall k :: 0 <= k < |r| ==> r[k] != [] && r[k] in xs
    decreases |xs|
  {
    if |xs| == 0 then []
    else if xs[0] == [] then DropEmpty(xs[1..])
    else [xs[0]] + DropEmpty(xs[1..])
  }

  /** How many pieces hold a character other than white space. */
  function CountNonBlank(pieces: seq<string>): nat
    decreases |pieces|
  {
    if |pieces| == 0 then 0
    else (if IsBlank(pieces[0]) then 0 else 1) + CountNonBlank(pieces[1..])
  }

  /** The positions, from `from` on, of the pieces that hold something
      other than white space, in increasing order. */
  function NonBlankPositions(ps: seq<string>, from: nat): (idx: seq<nat>)
    ensures forall k :: 0 <= k < |idx| ==> from <= idx[k] < |ps|
    decreases |ps| - from
  {
    if from >= |ps| then []
    else (if IsBlank(ps[from]) then [] else [from]) + NonBlankPositions(ps, from + 1)
  }

  /** The positions increase, and they are exactly the non-blank pieces. */
  lemma {:induction false} NonBlankPositionsShape(ps: seq<string>, from: nat)
    ensures var idx := NonBlankPositions(ps, from);
            forall k, l :: 0 <= k < l < |idx| ==> idx[k] < idx[l]
    ensures var idx := NonBlankPositions(ps, from);
            forall j :: from <= j < |ps| ==> (j in idx <==> !IsBlank(ps[j]))
    decreases |ps| - from
  {
    if from < |ps| {
      NonBlankPositionsShape(ps, from + 1);
      var rest := NonBlankPositions(ps, from + 1);
      var idx := NonBlankPositions(ps, from);
      if !IsBlank(ps[from]) {
        assert idx == [from] + rest;
        ConsIncreasing(from, rest);
      } else {
        assert idx == rest;
      }
    }
  }

  /** A position ahead of increasing larger ones keeps them increasing. */
  lemma ConsIncreasing(x: nat, rest: seq<nat>)
    requires forall k :: 0 <= k < |rest| ==> x < rest[k]
    requires forall k, l :: 0 <= k < l < |rest| ==> rest[k] < rest[l]
    ensures var idx := [x] + rest;
            forall k, l :: 0 <= k < l < |idx| ==> idx[k] < idx[l]
  {
    var idx := [x] + rest;
    forall k, l | 0 <= k < l < |idx|
      ensures idx[k] < idx[l]
    {
      assert idx[l] == rest[l - 1];
    }
  }

  /** The positions, from `from` on, of the non-empty strings. */
  function NonEmptyPositions(xs: seq<string>, from: nat): (idx: seq<nat>)
    ensures forall k :: 0 <= k < |idx| ==> from <= idx[k] < |xs|
    decreases |xs| - from
  {
    if from >= |xs| then []
    else (if xs[from] == [] then [] else [from]) + NonEmptyPositions(xs, from + 1)
  }

  /** Dropping the empty strings keeps, in order, those at the non-empty
      positions. */
  lemma {:induction false} KeptNonEmpty(xs: seq<string>, from: nat)
    requires from <= |xs|
    ensures var r := DropEmpty(xs[from..]);
            var idx := NonEmptyPositions(xs, from);
            |r| == |idx| && forall k :: 0 <= k < |r| ==> r[k] == xs[idx[k]]
    decreases |xs| - from
  {
    if from < |xs| {
      KeptNonEmpty(xs, from + 1);
      var rest := DropEmpty(xs[from + 1..]);
      var later := NonEmptyPositions(xs, from + 1);
      var idx := NonEmptyPositions(xs, from);
      assert xs[from..][1..] == xs[from + 1..];
      if xs[from] == [] {
        assert DropEmpty(xs[from..]) == rest;
        assert idx == later;
      } else {
        var r := DropEmpty(xs[from..]);
        assert r == [xs[from]] + rest;
        assert idx == [from] + later;
        forall k | 0 <= k < |r|
          ensures r[k] == xs[idx[k]]
        {
          if k > 0 {
            assert r[k] == rest[k - 1] && idx[k] == later[k - 1];
          }
        }
      }
    }
  }

  /** A piece trims to nothing exactly when it is blank. */
  lemma {:induction false} TrimmedPositions(ps: seq<string>, from: nat)
    ensures NonEmptyPositions(TrimAll(ps), from) == NonBlankPositions(ps, from)
    decreases |ps| - from
  {
    if from < |ps| {
      TrimmedPositions(ps, from + 1);
      TrimEmpty(ps[from]);
    }
  }

  /** The trimmed, non-empty pieces of `data` cut at `sep`: block `k` is
      the trimmed piece at the `k`-th non-blank position. */
  function Blocks(data: string, sep: string): (r: seq<string>)
    requires |sep| > 0
    ensures forall k :: 0 <= k < |r| ==> r[k] != [] && IsTrimmed(r[k])
    ensures forall k :: 0 <= k < |r| ==> !Contains(r[k], sep)
    ensures |r| == CountNonBlank(Split(data, sep))
    ensures var pieces := Split(data, sep);
            var idx := NonBlankPositions(pieces, 0);
            |r| == |idx| && forall k :: 0 <= k < |r| ==> r[k] == Trim(pieces[idx[k]])
  {
    BlocksWithoutSeparator(data, sep);
    BlocksArePositions(data, sep);
    DropEmpty(TrimAll(Split(data, sep)))
  }

  lemma BlocksWithoutSeparator(data: string, sep: string)
    requires |sep| > 0
    ensures var r := DropEmpty(TrimAll(Split(data, sep)));
            forall k :: 0 <= k < |r| ==> !Contains(r[k], sep)
  {
    var pieces := Split(data, sep);
    var trimmed := TrimAll(pieces);
    var r := DropEmpty(trimmed);
    forall k | 0 <= k < |r| ensures !Contains(r[k], sep) {
      var j :| 0 <= j < |trimmed| && r[k] == trimmed[j];
      TrimKeepsOut(pieces[j], sep);
    }
  }

  lemma BlocksArePositions(data: string, sep: string)
    requires |sep| > 0
    ensures var pieces := Split(data, sep);
            var r := DropEmpty(TrimAll(pieces));
            var idx := NonBlankPositions(pieces, 0);
            (forall k :: 0 <= k < |r| ==> r[k] != [] && IsTrimmed(r[k]))
            && |r| == CountNonBlank(pieces)
            && |r| == |idx| && forall k :: 0 <= k < |r| ==> r[k] == Trim(pieces[idx[k]])
  {
    var pieces := Split(data, sep);
    var trimmed := TrimAll(pieces);
    NonEmptyTrimmedCount(pieces);
    KeptNonEmpty(trimmed, 0);
    assert trimmed[0..] == trimmed;
    TrimmedPositions(pieces, 0);
  }

  /** Trimming cannot bring a literal into a text that lacks it. */
  lemma TrimKeepsOut(p: string, sep: string)
    requires !Contains(p, sep)
    ensures !Contains(Trim(p), sep)
  {
    var t := Trim(p);
    if Contains(t, sep) {
      ContainsSlice(p, TrimOffset(p), TrimOffset(p) + |t|, sep);
    }
  }

  /** `textToPrestations`: the duty blocks of a booklet, that is the pieces
      between separator lines, trimmed, empty ones left out. Each block is
      non-empty, starts and ends with a non-space character and never
      contains the separator; there are as many blocks as pieces that are
      not all white space. */
  function TextToPrestations(data: string): (r: seq<string>)
    ensures forall k :: 0 <= k < |r| ==> r[k] != [] && IsTrimmed(r[k])
    ensures forall k :: 0 <= k < |r| ==> !Contains(r[k], Separator)
    ensures |r| == CountNonBlank(Split(data, Separator))
    ensures var pieces := Split(data, Separator);
            var idx := NonBlankPositions(pieces, 0);
            |r| == |idx| && forall k :: 0 <= k < |r| ==> r[k] == Trim(pieces[idx[k]])
  {
    Blocks(data, Separator)
  }

  /** The blocks in document order: block `k` is the trimmed `idx[k]`-th
      piece between separators, the positions increase, and every piece
      holding anything but white space gives a block. */
  lemma BlocksInOrder(data: string)
    ensures var pieces := Split(data, Separator);
            var idx := NonBlankPositions(pieces, 0);
            var r := TextToPrestations(data);
            |r| == |idx|
            && (forall k :: 0 <= k < |r| ==> r[k] == Trim(pieces[idx[k]]))
            && (forall k, l :: 0 <= k < l < |idx| ==> idx[k] < idx[l])
            && (forall j :: 0 <= j < |pieces| ==> (j in idx <==> !IsBlank(pieces[j])))
  {
    NonBlankPositionsShape(Split(data, Separator), 0);
  }

  lemma {:induction false} NonEmptyTrimmedCount(pieces: seq<string>)
    ensures |DropEmpty(TrimAll(pieces))| == CountNonBlank(pieces)
    decreases |pieces|
  {
    if |pieces| > 0 {
      TrimEmpty(pieces[0]);
      var t := TrimAll(pieces);
      assert t[1..] == TrimAll(pieces[1..]);
      NonEmptyTrimmedCount(pieces[1..]);
      assert DropEmpty(t) == (if t[0] == [] then [] else [t[0]]) + DropEmpty(t[1..]);
    }
  }

  /** A booklet without the separator is one duty (the trimmed text) when
      it holds anything but white space, and no duty otherwise. */
  lemma SingleBlock(data: string)
    requires !Contains(data, Separator)
    ensures IsBlank(data) ==> TextToPrestations(data) == []
    ensures !IsBlank(data) ==> TextToPrestations(data) == [Trim(data)]
  {
    SplitWithoutSeparator(data, Separator);
    TrimEmpty(data);
    var t := TrimAll([data]);
    assert t == [Trim(data)];
    assert t[1..] == [];
    assert DropEmpty(t) == (if t[0] == [] then [] else [t[0]]) + DropEmpty(t[1..]);
  }

  // =====================================================================
  // Task segments

  /** What `.` matches in a JavaScript pattern without the `s` flag. */
  predicate IsDot(c: char) {
    c != '\n' && c != '\r' && c as int != 0x2028 && c as int != 0x2029
  }

  /** The fixed eleven characters `\d{2}.\d{2}-\d{2}.\d{2}` start at `i`. */
  predicate RangeAt(s: string, i: nat) {
    i + 11 <= |s|
    && IsDigit(s[i]) && IsDigit(s[i + 1]) && IsDot(s[i + 2]) && IsDigit(s[i + 3]) && IsDigit(s[i + 4])
    && s[i + 5] == '-'
    && IsDigit(s[i + 6]) && IsDigit(s[i + 7]) && IsDot(s[i + 8]) && IsDigit(s[i + 9]) && IsDigit(s[i + 10])
  }

  /** `separateur.test(t)`: a time range starts somewhere in `t`. */
  predicate ContainsRange(t: string) {
    exists i: nat | i <= |t| :: RangeAt(t, i)
  }

  lemma RangeInSlice(s: string, lo: nat, hi: nat, i: nat)
    requires lo <= hi <= |s| && RangeAt(s[lo..hi], i)
    ensures RangeAt(s, lo + i)
  {
    var t := s[lo..hi];
    assert forall k :: i <= k < i + 11 ==> t[k] == s[lo + k];
  }

  /** The run of spaces ` *` matches greedily from `i`. */
  function SpacesFrom(s: string, i: nat): (n: nat)
    requires i <= |s|
    ensures i + n <= |s|
    ensures forall k :: i <= k < i + n ==> s[k] == ' '
    ensures i + n == |s| || s[i + n] != ' '
    decreases |s| - i
  {
    if i < |s| && s[i] == ' ' then 1 + SpacesFrom(s, i + 1) else 0
  }

  /** Length of the match of `\d{2}.\d{2}-\d{2}.\d{2} *\d{0,4}` at `i`:
      the fixed head, every following space, then up to four digits. */
  function RangeLength(s: string, i: nat): (n: nat)
    requires RangeAt(s, i)
    ensures 11 <= n && i + n <= |s|
  {
    var sp := SpacesFrom(s, i + 11);
    11 + sp + DigitsFrom(s, i + 11 + sp, 4)
  }

  /** A piece of `taches.split(/(range)/)`: the text between two ranges, or
      a range itself (kept because the pattern captures it). */
  datatype Part = Text(text: string) | Range(text: string)

  function Texts(parts: seq<Part>): (r: seq<string>)
    ensures |r| == |parts| && forall k :: 0 <= k < |r| ==> r[k] == parts[k].text
  {
    seq(|parts|, k requires 0 <= k < |parts| => parts[k].text)
  }

  /** Text pieces hold no range; range pieces start with one. */
  predicate Classified(part: Part) {
    match part
    case Text(t) => !ContainsRange(t)
    case Range(t) => RangeAt(t, 0)
  }

  /** `String.prototype.split` with the capturing time-range pattern, as the
      ECMAScript split algorithm runs it: positions are tried left to right
      from `q`, the pending text starts at `p`, and a match emits the text
      before it and the range itself. Text pieces never contain a range,
      range pieces start with one, and the pieces put back together give
      the input. The result is the reference reading `Scan`: the text up
      to the leftmost match, the greedy match there, then the split of
      what follows. */
  function SplitRanges(s: string, p: nat, q: nat): (parts: seq<Part>)
    requires p <= q <= |s|
    requires forall j: nat :: p <= j < q ==> !RangeAt(s, j)
    ensures forall k :: 0 <= k < |parts| ==> Classified(parts[k])
    ensures Concat(Texts(parts)) == s[p..]
    ensures parts == Scan(s, p)
    decreases |s| - q
  {
    if q == |s| then
      var t := s[p..];
      NoRangeInGap(s, p, q);
      NextMatchSkips(s, p, q);
      ScanLast(s, p);
      assert s[p..q] == t;
      assert Texts([Text(t)]) == [t];
      assert Concat([t]) == t by {
        assert [t][1..] == [];
      }
      [Text(t)]
    else if RangeAt(s, q) then
      var e := q + RangeLength(s, q);
      var rest := SplitRanges(s, e, e);
      MatchStep(s, p, q, e, rest);
      NextMatchSkips(s, p, q);
      ScanStep(s, p, q, e);
      [Text(s[p..q]), Range(s[q..e])] + rest
    else
      SplitRanges(s, p, q + 1)
  }

  /** A match at `q` emits the text before it and the range, ahead of the
      pieces of the rest. */
  lemma MatchStep(s: string, p: nat, q: nat, e: nat, rest: seq<Part>)
    requires p <= q && q + 11 <= e <= |s| && RangeAt(s, q)
    requires forall j: nat :: p <= j < q ==> !RangeAt(s, j)
    requires forall k :: 0 <= k < |rest| ==> Classified(rest[k])
    requires Concat(Texts(rest)) == s[e..]
    ensures forall k :: 0 <= k < |rest| + 2 ==> Classified(([Text(s[p..q]), Range(s[q..e])] + rest)[k])
    ensures Concat(Texts([Text(s[p..q]), Range(s[q..e])] + rest)) == s[p..]
  {
    NoRangeInGap(s, p, q);
    RangeSliceStarts(s, q, e);
    ClassifiedCons(Text(s[p..q]), Range(s[q..e]), rest);
    PairTexts(Text(s[p..q]), Range(s[q..e]), rest);
    ConcatPair(s[p..q], s[q..e], Texts(rest));
    SliceThree(s, p, q, e);
  }

  /** A slice that starts at a match starts with that match. */
  lemma RangeSliceStarts(s: string, x: nat, e: nat)
    requires RangeAt(s, x) && x + 11 <= e <= |s|
    ensures RangeAt(s[x..e], 0)
  {
    var t := s[x..e];
    assert forall k :: 0 <= k < 11 ==> t[k] == s[x + k];
  }

  lemma ClassifiedCons(a: Part, b: Part, rest: seq<Part>)
    requires Classified(a) && Classified(b)
    requires forall k :: 0 <= k < |rest| ==> Classified(rest[k])
    ensures forall k :: 0 <= k < |rest| + 2 ==> Classified(([a, b] + rest)[k])
  {
    var parts := [a, b] + rest;
    forall k | 2 <= k < |parts| ensures parts[k] == rest[k - 2] {
    }
  }

  /** Text the scan walked over without a match holds no range. */
  lemma NoRangeInGap(s: string, p: nat, q: nat)
    requires p <= q <= |s|
    requires forall j: nat :: p <= j < q ==> !RangeAt(s, j)
    ensures !ContainsRange(s[p..q])
  {
    if ContainsRange(s[p..q]) {
      var i: nat :| i <= q - p && RangeAt(s[p..q], i);
      RangeInSlice(s, p, q, i);
    }
  }

  /** The leftmost position from `p` where a time range starts, or the
      end of the input when none does. */
  function NextMatch(s: string, p: nat): (r: nat)
    requires p <= |s|
    ensures p <= r <= |s|
    ensures r < |s| ==> RangeAt(s, r)
    decreases |s| - p
  {
    if p == |s| || RangeAt(s, p) then p else NextMatch(s, p + 1)
  }

  /** No range starts before the one `NextMatch` finds. */
  lemma {:induction false} NextMatchIsFirst(s: string, p: nat)
    requires p <= |s|
    ensures forall j: nat :: p <= j < NextMatch(s, p) ==> !RangeAt(s, j)
    decreases |s| - p
  {
    if p < |s| && !RangeAt(s, p) {
      NextMatchIsFirst(s, p + 1);
    }
  }

  /** A gap without a range does not move the next match. */
  lemma {:induction false} NextMatchSkips(s: string, p: nat, q: nat)
    requires p <= q <= |s|
    requires forall j: nat :: p <= j < q ==> !RangeAt(s, j)
    ensures NextMatch(s, p) == NextMatch(s, q)
    decreases q - p
  {
    if p < q {
      assert !RangeAt(s, p);
      NextMatchSkips(s, p + 1, q);
    }
  }

  /** A reference reading of `s.slice(p).split(/(range)/)`, match by
      match: the text up to the leftmost match, the greedy match itself,
      then the split of what follows; the text runs to the end of the
      input when no match is left. */
  function Scan(s: string, p: nat): (parts: seq<Part>)
    requires p <= |s|
    ensures |parts| > 0 && parts[0] == Text(s[p..NextMatch(s, p)])
    decreases |s| - p
  {
    var x := NextMatch(s, p);
    if x == |s| then [Text(s[p..x])]
    else
      var e := x + RangeLength(s, x);
      [Text(s[p..x]), Range(s[x..e])] + Scan(s, e)
  }

  /** One match of the reference split. */
  lemma ScanStep(s: string, p: nat, x: nat, e: nat)
    requires p <= |s| && x == NextMatch(s, p) < |s| && e == x + RangeLength(s, x)
    ensures Scan(s, p) == [Text(s[p..x]), Range(s[x..e])] + Scan(s, e)
  {
  }

  /** The split of a tail without a match is that tail. */
  lemma ScanLast(s: string, p: nat)
    requires p <= |s| && NextMatch(s, p) == |s|
    ensures Scan(s, p) == [Text(s[p..])] && |Scan(s, p)| == 1
  {
    assert s[p..NextMatch(s, p)] == s[p..];
  }

  /** Text and range pieces alternate, starting and ending with text. */
  predicate Alternates(parts: seq<Part>) {
    |parts| % 2 == 1 && forall k :: 0 <= k < |parts| ==> (parts[k].Text? <==> k % 2 == 0)
  }

  lemma SingleText(t: string)
    ensures Alternates([Text(t)]) && Concat(Texts([Text(t)])) == t
  {
    assert Texts([Text(t)]) == [t];
    assert [t][1..] == [];
  }

  lemma PairCons(u: string, v: string, rest: seq<Part>)
    requires Alternates(rest)
    ensures Alternates([Text(u), Range(v)] + rest)
    ensures Concat(Texts([Text(u), Range(v)] + rest)) == u + v + Concat(Texts(rest))
  {
    PairAlternates(Text(u), Range(v), rest);
    PairTexts(Text(u), Range(v), rest);
    ConcatPair(u, v, Texts(rest));
  }

  lemma PairAlternates(a: Part, b: Part, rest: seq<Part>)
    requires a.Text? && b.Range? && Alternates(rest)
    ensures Alternates([a, b] + rest)
  {
    var parts := [a, b] + rest;
    forall k | 2 <= k < |parts| ensures (parts[k].Text? <==> k % 2 == 0) {
      assert parts[k] == rest[k - 2];
    }
  }

  lemma PairTexts(a: Part, b: Part, rest: seq<Part>)
    ensures Texts([a, b] + rest) == [a.text, b.text] + Texts(rest)
  {
  }

  lemma SliceThree(s: string, p: nat, x: nat, e: nat)
    requires p <= x <= e <= |s|
    ensures s[p..] == s[p..x] + s[x..e] + s[e..]
  {
  }

  /** The pieces of the split alternate text and range, starting and
      ending with text, and spell the input. */
  lemma {:induction false} ScanShape(s: string, p: nat)
    requires p <= |s|
    ensures Alternates(Scan(s, p)) && Concat(Texts(Scan(s, p))) == s[p..]
    decreases |s| - p
  {
    var x := NextMatch(s, p);
    if x == |s| {
      ScanLast(s, p);
      SingleText(s[p..]);
    } else {
      var e := x + RangeLength(s, x);
      ScanShape(s, e);
      ScanStep(s, p, x, e);
      PairCons(s[p..x], s[x..e], Scan(s, e));
      SliceThree(s, p, x, e);
    }
  }

  lemma ConcatPair(u: string, v: string, rest: seq<string>)
    ensures Concat([u, v] + rest) == u + v + Concat(rest)
  {
    ConcatAppend([u, v], rest);
    assert [u, v][1..] == [v];
    assert [v][1..] == [];
  }

  /** The space run of a match, read inside a slice that holds it. */
  lemma {:induction false} SpacesInSlice(s: string, x: nat, e: nat, i: nat)
    requires x + i <= e <= |s| && x + i + SpacesFrom(s, x + i) <= e
    ensures SpacesFrom(s[x..e], i) == SpacesFrom(s, x + i)
    decreases e - x - i
  {
    var t := s[x..e];
    if x + i < e {
      assert t[i] == s[x + i];
      if s[x + i] == ' ' {
        SpacesInSlice(s, x, e, i + 1);
      }
    }
  }

  /** The digit run of a match, read inside a slice that holds it. */
  lemma {:induction false} DigitsInSlice(s: string, x: nat, e: nat, i: nat, max: nat)
    requires x + i <= e <= |s| && x + i + DigitsFrom(s, x + i, max) <= e
    ensures DigitsFrom(s[x..e], i, max) == DigitsFrom(s, x + i, max)
    decreases max
  {
    var t := s[x..e];
    if max > 0 && x + i < e {
      assert t[i] == s[x + i];
      if IsDigit(s[x + i]) {
        DigitsInSlice(s, x, e, i + 1, max - 1);
      }
    }
  }

  /** The text ahead of the next match holds no range. */
  lemma GapBeforeNext(s: string, p: nat)
    requires p <= |s|
    ensures !ContainsRange(s[p..NextMatch(s, p)])
  {
    NextMatchIsFirst(s, p);
    NoRangeInGap(s, p, NextMatch(s, p));
  }

  /** A range piece is one whole greedy match: matched on its own, the
      pattern takes all of it. */
  lemma RangePieceIsWholeMatch(s: string, x: nat)
    requires RangeAt(s, x)
    ensures var t := s[x..x + RangeLength(s, x)];
            RangeAt(t, 0) && RangeLength(t, 0) == |t|
  {
    var e := x + RangeLength(s, x);
    RangeSliceStarts(s, x, e);
    RangeLengthInSlice(s, x, e);
  }

  lemma RangeLengthInSlice(s: string, x: nat, e: nat)
    requires RangeAt(s, x) && e == x + RangeLength(s, x) && RangeAt(s[x..e], 0)
    ensures RangeLength(s[x..e], 0) == e - x
  {
    var sp := SpacesFrom(s, x + 11);
    SpacesInSlice(s, x, e, 11);
    DigitsInSlice(s, x, e, 11 + sp, 4);
  }

  /** A text piece holds no range; a range piece is one whole greedy
      match, which the pattern, matched on the piece alone, takes all of. */
  predicate WholePiece(part: Part) {
    Classified(part) && (part.Range? ==> RangeLength(part.text, 0) == |part.text|)
  }

  lemma WholeGap(s: string, p: nat)
    requires p <= |s|
    ensures WholePiece(Text(s[p..NextMatch(s, p)]))
  {
    GapBeforeNext(s, p);
  }

  lemma WholeMatch(s: string, x: nat)
    requires RangeAt(s, x)
    ensures WholePiece(Range(s[x..x + RangeLength(s, x)]))
  {
    RangePieceIsWholeMatch(s, x);
  }

  /** Every piece of the split is whole: texts hold no range, and each
      range piece is one entire greedy match. */
  lemma ScanPieces(s: string, p: nat)
    requires p <= |s|
    ensures forall k :: 0 <= k < |Scan(s, p)| ==> WholePiece(Scan(s, p)[k])
  {
    forall k | 0 <= k < |Scan(s, p)|
      ensures WholePiece(Scan(s, p)[k])
    {
      ScanPieceAt(s, p, k);
    }
  }

  lemma {:induction false} ScanPieceAt(s: string, p: nat, k: nat)
    requires p <= |s| && k < |Scan(s, p)|
    ensures WholePiece(Scan(s, p)[k])
    decreases |s| - p
  {
    var x := NextMatch(s, p);
    if k == 0 {
      WholeGap(s, p);
      WholeSame(Scan(s, p)[k], Text(s[p..x]));
    } else {
      if x == |s| {
        ScanLast(s, p);
        assert false;
      }
      if k == 1 {
        ScanSecond(s, p);
      } else {
        var e := x + RangeLength(s, x);
        ScanStep(s, p, x, e);
        PairIndex(Scan(s, p), Text(s[p..x]), Range(s[x..e]), Scan(s, e), k);
        ScanPieceAt(s, e, k - 2);
        WholeSame(Scan(s, p)[k], Scan(s, e)[k - 2]);
      }
    }
  }

  /** The piece after the first text is the leftmost match, whole. */
  lemma ScanSecond(s: string, p: nat)
    requires p <= |s| && NextMatch(s, p) < |s|
    ensures |Scan(s, p)| > 1 && WholePiece(Scan(s, p)[1])
  {
    var x := NextMatch(s, p);
    var e := x + RangeLength(s, x);
    ScanStep(s, p, x, e);
    PairIndex(Scan(s, p), Text(s[p..x]), Range(s[x..e]), Scan(s, e), 1);
    WholeMatch(s, x);
    WholeSame(Scan(s, p)[1], Range(s[x..e]));
  }

  lemma WholeSame(a: Part, b: Part)
    requires a == b && WholePiece(b)
    ensures WholePiece(a)
  {
  }

  /** Indexing past the first two pieces indexes the rest. */
  lemma PairIndex(parts: seq<Part>, a: Part, b: Part, rest: seq<Part>, k: nat)
    requires parts == [a, b] + rest && 1 <= k < |parts|
    ensures k == 1 ==> parts[k] == b
    ensures k >= 2 ==> parts[k] == rest[k - 2]
  {
  }

  /** `.filter(e => e.trim() !== '')`. */
  function DropBlank(xs: seq<string>): seq<string>
    decreases |xs|
  {
    if |xs| == 0 then []
    else if Trim(xs[0]) == [] then DropBlank(xs[1..])
    else [xs[0]] + DropBlank(xs[1..])
  }

  /** What the filter keeps: pieces of the input that do not trim to
      nothing. */
  lemma {:induction false} DropBlankKeeps(xs: seq<string>, k: nat)
    requires k < |DropBlank(xs)|
    ensures Trim(DropBlank(xs)[k]) != [] && DropBlank(xs)[k] in xs
    decreases |xs|
  {
    assert |xs| > 0;
    if Trim(xs[0]) == [] {
      DropBlankKeeps(xs[1..], k);
      assert DropBlank(xs)[k] in xs[1..];
    } else if k > 0 {
      DropBlankKeeps(xs[1..], k - 1);
      assert DropBlank(xs)[k] in xs[1..];
    }
  }

  /** Dropping blank pieces loses no character other than white space. */
  lemma {:induction false} DropBlankKeepsText(xs: seq<string>)
    ensures NonSpace(Concat(DropBlank(xs))) == NonSpace(Concat(xs))
    decreases |xs|
  {
    if |xs| > 0 {
      DropBlankKeepsText(xs[1..]);
      NonSpaceAppend(xs[0], Concat(xs[1..]));
      if Trim(xs[0]) == [] {
        TrimEmpty(xs[0]);
        BlankHasNoNonSpace(xs[0]);
      } else {
        var r := [xs[0]] + DropBlank(xs[1..]);
        assert r[1..] == DropBlank(xs[1..]);
        NonSpaceAppend(xs[0], Concat(DropBlank(xs[1..])));
      }
    }
  }

  /** The non-blank pieces of the task list, in order: the non-blank
      pieces of the reference split, so each is a text between two matches
      or one whole greedy match; read without white space they spell the
      task list. A piece the test recognises as a time range is one of the
      captured ranges, and it starts with the range. */
  function TaskParts(taches: string): (r: seq<string>)
    ensures r == DropBlank(Texts(Scan(taches, 0)))
    ensures forall k :: 0 <= k < |r| ==> !IsBlank(r[k])
    ensures forall k :: 0 <= k < |r| && ContainsRange(r[k]) ==> RangeAt(r[k], 0)
    ensures NonSpace(Concat(r)) == NonSpace(taches)
  {
    var parts := SplitRanges(taches, 0, 0);
    assert taches[0..] == taches;
    DropBlankKeepsText(Texts(parts));
    var r := DropBlank(Texts(parts));
    forall k | 0 <= k < |r|
      ensures !IsBlank(r[k])
    {
      DropBlankKeeps(Texts(parts), k);
      TrimEmpty(r[k]);
    }
    forall k | 0 <= k < |r| && ContainsRange(r[k]) ensures RangeAt(r[k], 0) {
      DropBlankKeeps(Texts(parts), k);
      var j :| 0 <= j < |parts| && r[k] == parts[j].text;
      assert Classified(parts[j]);
    }
    r
  }

  /** `result[result.length - 1] += part`. On an empty array this writes the
      property `-1`, which is not an element: the elements stay as they are. */
  function AppendToLast(result: seq<string>, part: string): (r: seq<string>)
    ensures |r| == |result|
  {
    if |result| == 0 then result
    else result[..|result| - 1] + [result[|result| - 1] + part]
  }

  /** One turn of the loop over `parts`, at index `i`. */
  function GlueStep(result: seq<string>, i: nat, part: string): seq<string> {
    if ContainsRange(part) && i > 0 then AppendToLast(result, part)
    else if !ContainsRange(part) then result + [part]
    else result
  }

  /** The array `result` after the first `n` turns of the loop. */
  function Glue(parts: seq<string>, n: nat): seq<string>
    requires n <= |parts|
  {
    if n == 0 then [] else GlueStep(Glue(parts, n - 1), n - 1, parts[n - 1])
  }

  /** How many parts at the front are time ranges. */
  function LeadingRanges(ps: seq<string>): (n: nat)
    ensures n <= |ps|
    ensures forall k :: 0 <= k < n ==> ContainsRange(ps[k])
    ensures n < |ps| ==> !ContainsRange(ps[n])
    decreases |ps|
  {
    if |ps| > 0 && ContainsRange(ps[0]) then 1 + LeadingRanges(ps[1..]) else 0
  }

  /** The descriptive parts (those holding no time range), in order. */
  function Heads(ps: seq<string>): (r: seq<string>)
    ensures forall k :: 0 <= k < |r| ==> !ContainsRange(r[k]) && r[k] in ps
    decreases |ps|
  {
    if |ps| == 0 then []
    else if ContainsRange(ps[0]) then Heads(ps[1..])
    else [ps[0]] + Heads(ps[1..])
  }

  /** The segments found so far, and the ranges met since the last
      descriptive part. */
  datatype Grouping = Grouping(pending: string, segments: seq<string>)

  /** Reference grouping, read from the right: a range joins the ranges
      pending after it, and a descriptive part takes the pending ranges as
      its tail and opens a segment. What is still pending at the front (the
      ranges before any descriptive part) belongs to no segment. */
  function GroupFrom(ps: seq<string>): Grouping
    decreases |ps|
  {
    if |ps| == 0 then Grouping([], []) else Front(ps[0], GroupFrom(ps[1..]))
  }

  /** What one more part at the front does to a grouping. */
  function Front(y: string, g: Grouping): Grouping {
    if ContainsRange(y) then Grouping(y + g.pending, g.segments)
    else Grouping([], [y + g.pending] + g.segments)
  }

  /** What one more part at the end does to a grouping. */
  function Extend(g: Grouping, x: string): Grouping {
    if !ContainsRange(x) then Grouping(g.pending, g.segments + [x])
    else if g.segments == [] then Grouping(g.pending + x, [])
    else Grouping(g.pending, AppendToLast(g.segments, x))
  }

  lemma {:induction false} GroupFromSnoc(ps: seq<string>, x: string)
    ensures GroupFrom(ps + [x]) == Extend(GroupFrom(ps), x)
    decreases |ps|
  {
    if |ps| == 0 {
      assert ps + [x] == [x];
      assert [x][1..] == [];
      assert x + [] == x && [] + x == x;
    } else {
      assert (ps + [x])[1..] == ps[1..] + [x];
      GroupFromSnoc(ps[1..], x);
      FrontExtend(ps[0], GroupFrom(ps[1..]), x);
    }
  }

  /** Adding a part at the front and one at the back commute. */
  lemma FrontExtend(y: string, g: Grouping, x: string)
    ensures Front(y, Extend(g, x)) == Extend(Front(y, g), x)
  {
    if !ContainsRange(x) {
      AppendAssoc([y + g.pending], g.segments, [x]);
    } else if g.segments == [] {
      AppendAssoc(y, g.pending, x);
      assert AppendToLast([y + g.pending], x) == [y + g.pending + x];
    } else {
      AppendToLastCons(y + g.pending, g.segments, x);
    }
  }

  lemma AppendToLastCons(a: string, segs: seq<string>, x: string)
    requires |segs| > 0
    ensures AppendToLast([a] + segs, x) == [a] + AppendToLast(segs, x)
  {
    var all := [a] + segs;
    assert all[..|all| - 1] == [a] + segs[..|segs| - 1];
    assert all[|all| - 1] == segs[|segs| - 1];
  }

  /** The loop of `decoupeTachesPrestation` computes the reference grouping. */
  lemma {:induction false} GlueIsGroup(parts: seq<string>, n: nat)
    requires n <= |parts|
    ensures Glue(parts, n) == GroupFrom(parts[..n]).segments
  {
    if n > 0 {
      GlueIsGroup(parts, n - 1);
      assert parts[..n] == parts[..n - 1] + [parts[n - 1]];
      GroupFromSnoc(parts[..n - 1], parts[n - 1]);
      if n - 1 == 0 {
        assert parts[..0] == [];
      }
    }
  }

  /** One segment per descriptive part, each beginning with its part; the
      ranges ahead of the first descriptive part, then the segments, laid
      end to end give back every part: nothing reordered, duplicated or
      lost. */
  lemma {:induction false} GroupShape(ps: seq<string>)
    ensures |GroupFrom(ps).segments| == |Heads(ps)|
    ensures forall k :: 0 <= k < |Heads(ps)| ==> Heads(ps)[k] <= GroupFrom(ps).segments[k]
    ensures GroupFrom(ps).pending == Concat(ps[..LeadingRanges(ps)])
    ensures GroupFrom(ps).pending + Concat(GroupFrom(ps).segments) == Concat(ps)
    decreases |ps|
  {
    if |ps| > 0 {
      var rest := ps[1..];
      GroupShape(rest);
      FrontShape(ps[0], GroupFrom(rest), Heads(rest), rest[..LeadingRanges(rest)], Concat(rest));
      var n := LeadingRanges(ps);
      if ContainsRange(ps[0]) {
        assert ps[..n] == [ps[0]] + rest[..n - 1];
      } else {
        assert ps[..n] == [];
      }
    }
  }

  /** One more part at the front of a grouping whose shape is known. */
  lemma FrontShape(y: string, g: Grouping, h: seq<string>, lead: seq<string>, all: string)
    requires |g.segments| == |h| && forall k :: 0 <= k < |h| ==> h[k] <= g.segments[k]
    requires g.pending == Concat(lead) && g.pending + Concat(g.segments) == all
    ensures var f := Front(y, g);
            var h2 := if ContainsRange(y) then h else [y] + h;
            && |f.segments| == |h2|
            && (forall k :: 0 <= k < |h2| ==> h2[k] <= f.segments[k])
            && f.pending == (if ContainsRange(y) then Concat([y] + lead) else [])
            && f.pending + Concat(f.segments) == y + all
  {
    if ContainsRange(y) {
      assert ([y] + lead)[1..] == lead;
      AppendAssoc(y, g.pending, Concat(g.segments));
    } else {
      var segs := [y + g.pending] + g.segments;
      assert segs[1..] == g.segments;
      AppendAssoc(y, g.pending, Concat(g.segments));
    }
  }

  /** `decoupeTachesPrestation`: the task segments of a duty's task list.
      There is one segment per non-blank descriptive part, which it begins
      with; each time range is glued onto the segment before it, the ranges
      ahead of the first descriptive part are dropped, and nothing else is
      reordered, duplicated or lost. */
  function DecoupeTaches(taches: string): (r: seq<string>)
    ensures r == GroupFrom(TaskParts(taches)).segments
    ensures |r| == |Heads(TaskParts(taches))|
    ensures forall k :: 0 <= k < |r| ==>
      var h := Heads(TaskParts(taches))[k];
      h <= r[k] && !IsBlank(h) && !ContainsRange(h)
    ensures
      var parts := TaskParts(taches);
      Concat(parts) == Concat(parts[..LeadingRanges(parts)]) + Concat(r)
  {
    var parts := TaskParts(taches);
    GlueIsGroup(parts, |parts|);
    assert parts[..|parts|] == parts;
    GroupShape(parts);
    Glue(parts, |parts|)
  }

  // =====================================================================
  // Minutes between two clock readings

  /** Minutes since midnight of an `HH`, `MM` pair. */
  function ClockMinutes(h: Digits2, m: Digits2): nat {
    Number(h) * 60 + Number(m)
  }

  /** `additionnerHeures`: minutes from `hD:mD` to `hF:mF`, counting the end
      on the next day when the start hour string is greater than the end
      hour string. That string test is the numeric one, so the end moves to
      the next day exactly when its hour is smaller; either way the result
      lands on the end time modulo a day. */
  function AdditionnerHeures(hD: Digits2, mD: Digits2, hF: Digits2, mF: Digits2): (r: int)
    ensures Number(hD) > Number(hF) ==> r == ClockMinutes(hF, mF) + 24 * 60 - ClockMinutes(hD, mD)
    ensures Number(hD) <= Number(hF) ==> r == ClockMinutes(hF, mF) - ClockMinutes(hD, mD)
    ensures (ClockMinutes(hD, mD) + r - ClockMinutes(hF, mF)) % (24 * 60) == 0
  {
    TwoDigitOrder(hF, hD);
    if LexLess(hF, hD) then
      var horaireDebut := Number(hD) * 60 + Number(mD);
      var horaireFin := (Number(hF) + 24) * 60 + Number(mF);
      horaireFin - horaireDebut
    else
      var horaireDebut := Number(hD) * 60 + Number(mD);
      var horaireFin := Number(hF) * 60 + Number(mF);
      horaireFin - horaireDebut
  }

  /** A real clock reading: hour 00-23, minute 00-59. */
  predicate IsClock(h: Digits2, m: Digits2) {
    Number(h) < 24 && Number(m) < 60
  }

  /** Across midnight the result is a positive span shorter than a day. */
  lemma OvernightSpan(hD: Digits2, mD: Digits2, hF: Digits2, mF: Digits2)
    requires IsClock(hD, mD) && IsClock(hF, mF) && Number(hD) > Number(hF)
    ensures 1 <= AdditionnerHeures(hD, mD, hF, mF) <= 24 * 60 - 1
  {
  }

  /** Nothing clamps the plain difference: between real clock readings the
      result is negative exactly when both share the hour and the minutes go
      backwards. */
  lemma NegativeOnlyWithinHour(hD: Digits2, mD: Digits2, hF: Digits2, mF: Digits2)
    requires IsClock(hD, mD) && IsClock(hF, mF)
    ensures AdditionnerHeures(hD, mD, hF, mF) < 0 <==> Number(hD) == Number(hF) && Number(mF) < Number(mD)
  {
  }

  lemma AdditionnerHeuresExamples()
    ensures AdditionnerHeures("23", "45", "00", "15") == 30
    ensures AdditionnerHeures("08", "00", "16", "30") == 510
    ensures AdditionnerHeures("08", "30", "08", "10") == -20
  {
    NumberOfTwoDigits("23");
    NumberOfTwoDigits("45");
    NumberOfTwoDigits("00");
    NumberOfTwoDigits("15");
    NumberOfTwoDigits("08");
    NumberOfTwoDigits("16");
    NumberOfTwoDigits("30");
    NumberOfTwoDigits("10");
  }
}

=== FILE: wrappers.dfy ===
/** A value that may be absent: a regex group that did not participate, a
    lookup that found nothing. */
module Wrappers {

  datatype Option<+T> = None | Some(value: T) {

    /** The value, or `default` when absent. */
    function GetOr(default: T): T {
      match this
      case Some(v) => v
      case None => default
    }
  }
}
